=== FILE: README.md ===
# ai-document-chat, modelled in Dafny

ai-document-chat is a small Next.js application for chatting with uploaded
documents. The work that matters (embedding, retrieval, inference,
conversation state) happens at a hosted AI provider. The application's own
logic is thin and sits in a handful of server entry points and one table:

- **Provisioning** (`uploadFiles` in `src/lib/actions/uploadAction.tsx`). It
  uploads the form's `files`, creates a vector store holding them, polls that
  store until it reports "completed", then creates a file-search assistant
  bound to it and a thread.
- **Deletion** (`deleteAssistant` in `src/lib/actions/deleteAction.tsx`). It
  looks up a session row, then attempts to delete the files on the first
  page of the store's file listing, the vector store, the assistant and the
  thread. Each of those may fail without
  stopping the rest. Finally it deletes the row.
- **Chat relay** (`POST /api/chat`). It appends the user's message to a
  thread, runs the assistant, and returns the last message the run wrote as
  the assistant, in the order the provider's listing returns them.
  Provider errors keep their status.
- **Listing** (`GET /api/assistants`). It returns every session row with the
  names of the files on the first page of its vector store's file listing.
  Each per-store or per-file failure stays inside its own entry.
- **File tally** (`POST /api/upload` and `uploadFiles` in
  `src/lib/actions/uploadAction.ts`). These count the `File` values of a form
  and their bytes, and answer with a message.
- **Session table** (`assistant`). Its columns are assistant id (the primary
  key), vector store id, thread id and name, all NOT NULL.
- **Diagram detection** (`looksLikeMermaid` in `ChatMessage.tsx`). It
  checks for a keyword prefix after leading whitespace.

## How the model is built

Each provider or database call is an oracle. Every entry point takes an
environment datatype that holds each call's outcome (`Outcome<T>` is `Ok`
with a value or `Threw` with what was thrown). It returns its result
together with the trace (`seq<Call>`) of provider calls it attempted, in
order. Properties about call order, about what is never called, and about
tolerated failures are stated over that trace.

The table is a sequence of rows in storage order, with a primary-key
invariant (`ValidTable`) and a keyed map view (`AsMap`). The module layout
follows the sources:

| module | models |
|---|---|
| `Js` | the JavaScript semantics the code relies on: truthiness, `??`, `trimStart`, `${n}`, the `instanceof Error` message fallback |
| `Forms` | `FormData`: `getAll`, `values`, and a non-form argument |
| `Provider` | outcomes and the provider calls |
| `SessionStore` | `src/lib/db/schema/assistant.ts`, with the select, delete and insert semantics |
| `DeleteAction` | `src/lib/actions/deleteAction.tsx` |
| `UploadAction` | `src/lib/actions/uploadAction.tsx` |
| `ChatRelay` | `src/app/api/chat/route.ts` |
| `Listing` | `src/app/api/assistants/route.ts` |
| `MermaidDetect` | `looksLikeMermaid` in `src/components/ChatMessage.tsx` |
| `FileTally`, `UploadRoute`, `UploadLogAction` | `src/app/api/upload/route.ts` and `src/lib/actions/uploadAction.ts` |

### What the code does and does not do

- `uploadAction.tsx` inserts no session row, and its single `catch` only
  formats a message. A failed provisioning leaves its uploaded files, store
  or assistant behind. `UploadAction.UploadFiles` takes no table, and its
  contract states that no delete call ever appears in its trace.
- No code inserts into the session table. The new-chat page's form carries
  an `assistantName` entry (`src/app/chat/new/page.tsx:118-127`) into
  `uploadFiles` (`page.tsx:65-78`), but the action never reads it.
  `SessionStore.Insert` models only the constraints the schema declares.
- `src/app/chat/new/page.tsx` imports `@/lib/actions/uploadAction`, and both
  `uploadAction.ts` and `uploadAction.tsx` exist. The page reads
  `result.status` and `result.assistantId`, which only the `.tsx` action
  returns. Which file the bundler resolves is a build setting, so both
  actions are modelled.
- `looksLikeMermaid` is declared but never called. The component decides by
  asking the `mermaid` library to parse the text.

## Model

| member | source | states |
|---|---|---|
| SessionStore.Lookup | src/lib/actions/deleteAction.tsx:20-24 | a row comes back exactly when some stored row has the requested assistant id, and it is a stored row with that id |
| SessionStore.LookupIsMapGet | src/lib/actions/deleteAction.tsx:20-24 | the select by assistant id agrees with reading the keyed view of the table |
| SessionStore.AsMap | src/lib/db/schema/assistant.ts:3-8 | the keyed view has exactly the table's assistant ids as keys, and each maps to a stored row carrying that id |
| SessionStore.DeleteWhere | src/lib/actions/deleteAction.tsx:65-68 | a row survives the delete exactly when its assistant id differs from the requested one, and the table never grows |
| SessionStore.DeleteWhereKeys | src/lib/actions/deleteAction.tsx:65-68 | after the delete, the stored ids are the old ones minus the requested id: no other session disappears |
| SessionStore.DeleteWhereAbsent | src/lib/actions/deleteAction.tsx:65-68 | deleting an id that is not stored leaves the table exactly as it was |
| SessionStore.DeleteWhereSplices | src/lib/actions/deleteAction.tsx:65-68 | in a table that keeps its primary key, the delete removes exactly the one row at the id's position and keeps the order of the rest |
| SessionStore.DeleteWhereIsMapRemove | src/lib/actions/deleteAction.tsx:65-68 | seen as a map, the delete removes exactly the requested key and keeps every other key's row |
| SessionStore.DeleteWhereValid | src/lib/db/schema/assistant.ts:4 | the primary-key constraint still holds after a delete |
| SessionStore.Insert | src/lib/db/schema/assistant.ts:3-8 | an insert is accepted exactly when all four columns are non-NULL and the assistant id is not yet stored; an accepted row is appended, and a rejection names the NOT NULL column or the primary key it violates |
| SessionStore.InsertValid | src/lib/db/schema/assistant.ts:4 | the primary-key constraint still holds after an accepted insert |
| DeleteAction.DeleteFiles | src/lib/actions/deleteAction.tsx:36-42 | one file delete per listed file, in listing order, each with that file's id, whatever each delete did |
| DeleteAction.DeleteAssistantAction | src/lib/actions/deleteAction.tsx:12-80 | success exactly when the lookup succeeds, the row exists and the row delete succeeds; success gives the fixed message and removes the row; every error leaves the table unchanged; a throwing lookup or row delete gives "Failed to delete assistant: " and the error text; a missing row gives "not found"; a provider call is attempted exactly when the row was found |
| DeleteAction.FoundRowCallOrder | src/lib/actions/deleteAction.tsx:30-62 | for a found row whose files were listed, the calls are the listing, one delete per listed file in order, then the store, the assistant and the thread, with the stored ids |
| DeleteAction.ListingFailureSkipsStore | src/lib/actions/deleteAction.tsx:33-62 | a throwing file listing skips the file and store deletes, but the assistant and thread deletes are still attempted |
| DeleteAction.AssistantAndThreadOnce | src/lib/actions/deleteAction.tsx:50-62 | once the row is found, the assistant delete and the thread delete each occur exactly once in the trace, whatever the store phase did |
| DeleteAction.DeleteFilesIgnoresOutcomes | src/lib/actions/deleteAction.tsx:37-41 | a failed file delete never changes which later file deletes are attempted |
| DeleteAction.ToleratesDeleteFailures | src/lib/actions/deleteAction.tsx:33-62 | two runs that differ only in how the file, store, assistant and thread deletes fared give the same result, message, trace and table |
| DeleteAction.RowRemovedRegardless | src/lib/actions/deleteAction.tsx:64-73 | with the row present and both database calls succeeding, the action succeeds whatever the provider did; exactly that row leaves the table, the remaining rows keep their order, and the primary key still holds |
| DeleteAction.DeleteTwiceReportsNotFound | src/lib/actions/deleteAction.tsx:20-28 | deleting a session a second time reports "not found", attempts no provider call and leaves the table alone |
| UploadAction.FirstThrow | src/lib/actions/uploadAction.tsx:23-25 | returns nothing exactly when every upload succeeded, and otherwise the index of a throw before which every upload succeeded |
| UploadAction.UploadedIds | src/lib/actions/uploadAction.tsx:29 | the store receives the uploaded file ids, one per file, in form order |
| UploadAction.AwaitCompleted | src/lib/actions/uploadAction.tsx:34-47 | the wait resolves on the first retrieve reporting "completed" and rejects on the first retrieve that throws, in both cases after only answers of some other status; it keeps waiting exactly when every observed retrieve answered a status other than "completed" |
| UploadAction.UploadFiles | src/lib/actions/uploadAction.tsx:9-75 | no `files` value gives "No files were uploaded." with no call; a non-form argument fails with no call; an error result carries no ids; a success carries "Assistant created successfully!" and the ids the provider returned for the assistant and the thread; no delete call is ever made |
| UploadAction.ErrorMessages | src/lib/actions/uploadAction.tsx:17-74 | every error result is the missing-files result, or the "Upload failed: " report of an error thrown by the argument, an upload, the store creation, a retrieve, the assistant creation or the thread creation |
| UploadAction.FailureCause | src/lib/actions/uploadAction.tsx:23-73 | the failure reported carries the error of the step that threw first: the first throwing upload, else the store creation, else the first retrieve that threw before "completed", else the assistant creation, else the thread creation |
| UploadAction.SuccessIff | src/lib/actions/uploadAction.tsx:17-68 | the action succeeds exactly when there are files, every upload succeeds, the store is created, a retrieve reports "completed" before any retrieve throws, and the assistant and thread are created |
| UploadAction.UploadsThenStore | src/lib/actions/uploadAction.tsx:23-30 | each `files` value is uploaded once, in form order, before anything else, and no upload follows; a store is only created after all uploads succeeded, and it gets exactly their ids in the same order |
| UploadAction.AssistantAfterCompletedStore | src/lib/actions/uploadAction.tsx:34-59 | an assistant is created only after the store it is bound to reported "completed"; it is "AI Document Chat" on gpt-4o with file search and exactly that one vector store |
| UploadAction.StoreThrowTrace | src/lib/actions/uploadAction.tsx:27-74 | a vector-store creation that throws fails the action with that error, and the calls are exactly the uploads followed by that one creation |
| UploadAction.RetrieveThrowFails | src/lib/actions/uploadAction.tsx:42-45 | a retrieve that throws while the store is still pending fails the action with that error; the trace ends with the polls made so far, and no assistant is created |
| UploadAction.ReadyTrace | src/lib/actions/uploadAction.tsx:34-61 | once the store reports "completed" after n retrieves, the trace is exactly the uploads, the store creation, those n retrieves and the assistant creation, followed by the thread creation only when the assistant creation succeeded |
| UploadAction.PollingTrace | src/lib/actions/uploadAction.tsx:34-47 | while every retrieve answers a status other than "completed", the action is still waiting, and its trace is exactly the uploads, the store creation and those retrieves |
| UploadAction.NoFilesIffNoEntry | src/lib/actions/uploadAction.tsx:18-21 | a form gets the missing-files result, with no provider call, exactly when no entry is filed under "files" |
| ChatRelay.Catch | src/app/api/chat/route.ts:56-68 | a provider error keeps its message and its status, falling back to 200 when it has none; anything else thrown becomes 500 "An error occurred" |
| ChatRelay.Replies | src/app/api/chat/route.ts:41-42 | keeps only messages of the list that this run wrote as the assistant, and comes back empty exactly when there is none |
| ChatRelay.RepliesInOrder | src/app/api/chat/route.ts:41-42 | the filter result lists exactly the messages this run wrote as the assistant, each at its own list position, in list order |
| ChatRelay.LastReply | src/app/api/chat/route.ts:41-43 | there is no reply exactly when no message of the list was written by this run as the assistant |
| ChatRelay.LastReplyIsLastQualifying | src/app/api/chat/route.ts:41-43 | a qualifying message with no qualifying message after it is the reply selected |
| ChatRelay.LastReplyHasIndex | src/app/api/chat/route.ts:41-43 | a selected reply qualifies and sits at a position after which no message qualifies |
| ChatRelay.Post | src/app/api/chat/route.ts:6-69 | an unreadable body gives 500 "An error occurred"; a falsy assistant id gives 400 with no provider call; any provider call implies a truthy assistant id; a reply is status 200 and names the thread used, which is the caller's whenever the caller gave one that is not null or undefined |
| ChatRelay.ThreadChoice | src/app/api/chat/route.ts:18-25 | a new thread is created first exactly when the caller's thread id is null or undefined; otherwise the first call appends the message to the given thread, even an empty string |
| ChatRelay.OneUserMessageBeforeRun | src/app/api/chat/route.ts:22-30 | a run is started only right after the user's message, with the request's content, was appended to the same thread; no other message is appended |
| ChatRelay.RunGate | src/app/api/chat/route.ts:32-37 | a run ending in any status other than "completed" gives 500 naming that status, and no messages are listed |
| ChatRelay.ReplyIsLastOfRun | src/app/api/chat/route.ts:39-55 | a successful answer implies a completed run and is the text of the first content part of the last message this run wrote as the assistant |
| ChatRelay.NoReplyGives500 | src/app/api/chat/route.ts:45-50 | no qualifying message, or a last one whose first part is not text, gives 500 "No assistant response" |
| ChatRelay.EmptyReplyContentIsGenericError | src/app/api/chat/route.ts:45 | a qualifying reply with no content parts makes the read throw, which answers 500 "An error occurred" |
| ChatRelay.ChatTrace | src/app/api/chat/route.ts:17-40 | the exact calls of a request with an assistant id: a thread creation only when no thread id came, one user message, the run unless the append threw, and the message listing only after a completed run |
| ChatRelay.AppendFailurePassesThrough | src/app/api/chat/route.ts:22-25 | a failed message append is answered by the catch clause's mapping of the error, and no run or listing follows |
| ChatRelay.ReadReply | src/app/api/chat/route.ts:45-55 | it throws, and not as a provider error, exactly when the reply has no content part; it answers 200 with the text and the thread exactly when the first part is text; otherwise 500 "No assistant response" |
| ChatRelay.ChooseThread | src/app/api/chat/route.ts:18-19 | a thread is created exactly when the given id is null or undefined; the id used is never null or undefined, is the given one otherwise, and a throwing creation passes its error on |
| ChatRelay.ThreadThrowPassesThrough | src/app/api/chat/route.ts:18-19 | a throwing thread creation answers the catch clause's mapping of its error, and nothing else is attempted |
| ChatRelay.RunThrowPassesThrough | src/app/api/chat/route.ts:28-30 | a throwing run answers the catch clause's mapping of its error; the run call on the thread used is the last call, and no messages are listed |
| ChatRelay.ListThrowPassesThrough | src/app/api/chat/route.ts:40 | a throwing message listing after a completed run answers the catch clause's mapping of its error, and it is the last call |
| ChatRelay.TextReplyAnswers | src/app/api/chat/route.ts:41-55 | when the run's last assistant message opens with a text part, the answer is 200 with that text and the thread used |
| ChatRelay.CatchKeepsProviderErrors | src/app/api/chat/route.ts:56-68 | the catch clause always answers an error body: a provider error's own message and status where it has one, otherwise 500 with the generic text |
| ChatRelay.ApiErrorStatusExamples | src/app/api/chat/route.ts:58-66 | a provider 404 stays 404 with its message, a provider error without a status answers 200, and a non-Error throw answers 500 |
| Listing.FileName | src/app/api/assistants/route.ts:20-27 | a retrieved file shows its filename, or its object id when it has none; a failed retrieve shows the listed id |
| Listing.FileNames | src/app/api/assistants/route.ts:19-28 | one name per listed file, in listing order |
| Listing.EntriesOf | src/app/api/assistants/route.ts:14-43 | one entry per row, in row order, each built from that row and its own store listing |
| Listing.Get | src/app/api/assistants/route.ts:8-50 | a failed table read gives 500 "Failed to fetch assistants" with no provider call; otherwise the answer is 200 with a list of entries |
| Listing.EntriesFollowRows | src/app/api/assistants/route.ts:16-41 | one entry per row, in order, copying the four columns; a store whose listing threw shows no files, otherwise one name per listed file, in listing order |
| Listing.FailureIsolated | src/app/api/assistants/route.ts:30-33 | changing how one row's store listing fares changes no other row's entry |
| Listing.RowCalls | src/app/api/assistants/route.ts:17-33 | one row's calls: first the listing of its own vector store, then one retrieve per listed file in listing order, and nothing more when the listing threw |
| Listing.AllRowCallsAt | src/app/api/assistants/route.ts:14-33 | in the trace, each row's calls sit after those of every earlier row and before those of every later row |
| Listing.StoresListedInRowOrder | src/app/api/assistants/route.ts:14-18 | each row's vector store is listed exactly once, in row order, and it is the store the row names |
| MermaidDetect.LooksLikeMermaid | src/components/ChatMessage.tsx:12-29 | the detector itself: the keyword scan over the trimmed text; a positive verdict needs a lower-case letter first after the leading whitespace |
| MermaidDetect.AnyPrefixIff | src/components/ChatMessage.tsx:28 | the in-order scan succeeds exactly when some keyword of the list is a prefix of the text |
| MermaidDetect.LooksLikeMermaidIff | src/components/ChatMessage.tsx:12-29 | the verdict is positive exactly when the text, after its leading whitespace, starts with one of the twelve keywords |
| MermaidDetect.DependsOnlyOnTrimmed | src/components/ChatMessage.tsx:13 | the verdict on a text equals the verdict on its trimmed form |
| MermaidDetect.WhitespacePrefixIgnored | src/components/ChatMessage.tsx:13 | prefixing any run of whitespace leaves the verdict unchanged |
| MermaidDetect.BlankIsNotMermaid | src/components/ChatMessage.tsx:13-28 | empty or all-whitespace text is never taken for a diagram |
| MermaidDetect.AppendKeepsMermaid | src/components/ChatMessage.tsx:28 | appending text to a positive text keeps the verdict positive |
| MermaidDetect.XychartBetaRedundant | src/components/ChatMessage.tsx:25-26 | the first eleven keywords give the same verdict as all twelve, since "xychart" is a prefix of "xychart-beta" |
| MermaidDetect.PrefixExample | src/components/ChatMessage.tsx:23 | "pieces" counts as a diagram because it starts with "pie" |
| MermaidDetect.CaseExample | src/components/ChatMessage.tsx:14-28 | "Graph TD" does not count: the match is case-sensitive |
| FileTally.FilesIn | src/app/api/upload/route.ts:12-13 | the `instanceof File` filter: the `File` values in order, never more values than the input holds |
| FileTally.TotalSize | src/app/api/upload/route.ts:15 | the byte sum of the files, which is at least the size of each of them |
| FileTally.SuccessMessage | src/app/api/upload/route.ts:29 | the success template: it is non-empty and starts with a digit, and `SuccessMessageInjective` shows it determines both numbers |
| FileTally.FilesInMembers | src/app/api/upload/route.ts:12-13 | every value kept is a file of the form |
| FileTally.NoFilesIff | src/app/api/upload/route.ts:21 | no file is counted exactly when every form value is a string |
| FileTally.Tally | src/app/api/upload/route.ts:8-18 | the loop's count is the number of files among the form values, and its total is the sum of their sizes |
| FileTally.TextValueIgnored | src/app/api/upload/route.ts:13 | a string value changes neither the count nor the total |
| FileTally.FileValueCounted | src/app/api/upload/route.ts:13-16 | a file value adds one to the count and its size to the total |
| FileTally.SuccessMessageInjective | src/app/api/upload/route.ts:28-30 | the success message determines both the file count and the byte total: different numbers never give the same text |
| FileTally.SuccessIsNotNoFiles | src/lib/actions/uploadAction.ts:21-27 | a success message can never be mistaken for "No files were uploaded." |
| UploadRoute.Post | src/app/api/upload/route.ts:3-38 | a body that is not form data gives 500 "File upload failed."; a form without files gives 400 "No files were uploaded."; otherwise 200 with the count and total of its files; status 400 exactly when every value is a string |
| UploadLogAction.UploadFiles | src/lib/actions/uploadAction.ts:3-32 | a non-form argument gives "File upload failed."; a form without files gives "No files were uploaded."; otherwise the message with the count and total of its files; the no-files message comes back exactly when every value is a string |
| Forms.GetAll | src/lib/actions/uploadAction.tsx:18 | `getAll` returns no more values than there are entries |
| Forms.GetAllInOrder | src/lib/actions/uploadAction.tsx:18 | `getAll` returns exactly the values of the entries filed under the key, at increasing entry positions, so in form order |
| Forms.GetAllMembers | src/lib/actions/uploadAction.tsx:18 | every value returned belongs to an entry under the key, and every such entry's value is returned |
| Forms.Values | src/app/api/upload/route.ts:6 | `values()` returns every entry's value, position by position |
| Js.ErrorText | src/lib/actions/uploadAction.tsx:71-72 | an `Error`, provider errors included, contributes its own message; any other thrown value contributes "An unknown error occurred." |
| Js.Truthy | src/app/api/chat/route.ts:10 | a value is falsy exactly when it is undefined, null, false, zero or the empty string |
| Js.TrimStart | src/components/ChatMessage.tsx:13 | the result is a suffix of the input, everything dropped is whitespace, and the result does not start with whitespace |
| Js.TrimStartIdempotent | src/components/ChatMessage.tsx:13 | trimming twice trims nothing more |
| Js.DecimalString | src/app/api/upload/route.ts:29 | an integer renders as a nonempty run of digits without a leading zero |
| Js.DecimalRoundTrip | src/app/api/upload/route.ts:29 | reading the rendered digits back gives the number |
| Js.NullishIsFalsy | src/app/api/chat/route.ts:10-19 | every null or undefined value is falsy, while the empty string is falsy without being nullish: `!assistantId` rejects more values than `??` replaces |
| Js.Nullish | src/app/api/chat/route.ts:19 | the values on which `??` falls through: only null and undefined, and a nullish value is always falsy |

## Left out

- The provider SDK, the network, SQLite and Next.js itself are left out. Each call is an oracle outcome in an environment datatype. Retries and timeouts inside the SDK are not modelled.
- Concurrency is not modelled. `Promise.all` over the uploads is modelled in input order, and a rejection is the first failing upload by index. At run time the earliest failure to settle wins, and the uploads after it may still complete.
- `AwaitCompleted` models the poll timer's interval and the 5-second delay only as the order of retrieve answers. The code has no timeout, so an endless run of non-"completed" statuses is modelled as `StillPolling` after the observed answers. The model makes no termination claim. Retrieves that overlap because one takes longer than the interval are left out.
- The vector store's name, which embeds `new Date().toISOString()`, and the assistant's instructions text are not modelled. Neither affects any result.
- `console.log`, `console.warn` and `console.error` output is left out.
- `ChatRelay.Post`'s listing reads only the first page of `messages.list`, as the code does. Pagination is not modelled.
- The reply picked is the last qualifying message in the order the listing returns them. That order is the provider's choice, and the request passes no `order`, so which of several replies of one run is picked depends on the provider's default order. The model takes the listing as given.
- A plain `SELECT` on the session table is taken to return rows in storage order. SQL promises no order without `ORDER BY`. The order only affects the order of the listing's entries.
- `vectorStores.files.list(...)` is read through `.data`, the first page only, in `deleteAction.tsx:35-36` and `assistants/route.ts:18-20`. `DeleteAction.DeleteEnv.listFiles` and `Listing.ListingEnv.stores` stand for that first page. Files beyond it are neither deleted nor named, and the model does not represent them.
- Listing's nested `Promise.all` calls never reject, because each inner call has its own `catch`. The model runs them in row order and file order.
- Js.DecimalString: renders every natural exactly. A JavaScript number loses precision above 2^53 and prints in exponent form from 1e21 on, so counts and byte totals that large are not modelled.
- A `files` value that is a string rather than a `File` is passed to the upload like any other value; whether the SDK accepts it is part of that upload's oracle outcome.
- The React rendering of `ChatMessage.tsx` and its `mermaid.parse` check, the pages, `AddFilesButton.tsx`, `Mermaid.tsx`, `ThemeToggle.tsx` and the layouts are UI with no logic to verify.
- `src/lib/db/index.ts`, `drizzle.config.ts` and `src/lib/types.ts` are connection setup, build configuration and a UI progress type.
- `addFilesToVectorStore`, imported by `src/components/AddFilesButton.tsx:5`, is not defined in `uploadAction.ts` or `uploadAction.tsx`, so there is nothing to model.

=== FILE: chat_relay.dfy ===
/**
 `POST /api/chat`: relays one user message to an assistant. It checks the
 assistant id, uses the caller's thread or creates one, appends the message,
 runs the assistant to a terminal state, and answers with the run's reply.
 Provider errors keep their status and message; anything else thrown
 becomes a 500 "An error occurred".
 */
module ChatRelay {
  import opened Js
  import opened Provider

  const AssistantIdRequired := "assistantId is required"
  const RunFailedPrefix := "Run failed with status: "
  const NoAssistantResponse := "No assistant response"
  const GenericError := "An error occurred"
  const UserRole := "user"
  const AssistantRole := "assistant"

  /** The request body: `req.json()` either fails (malformed JSON, or a JSON
      `null` that cannot be destructured) or yields the three fields the
      handler reads, each `Undefined` when absent. */
  datatype Request = Unreadable | Fields(message: Value, assistantId: Value, threadId: Value)

  /** The run `createAndPoll` comes back with, in a terminal state. */
  datatype Run = Run(id: string, status: string)

  datatype ContentPart = TextPart(value: string) | OtherPart(kind: string)

  /** A thread message; `runId` is absent for messages no run produced. */
  datatype Message = Message(runId: Option<string>, role: string, content: seq<ContentPart>)

  /** The outcome of every provider call the handler can make. */
  datatype ChatEnv = ChatEnv(
    createThread: Outcome<string>,
    addMessage: Outcome<()>,
    run: Outcome<Run>,
    listMessages: Outcome<seq<Message>>)

  datatype ChatBody = ErrorBody(error: string) | ReplyBody(response: string, threadId: Value)

  datatype Response = Response(status: int, body: ChatBody)

  /** The HTTP response and the provider calls attempted, in order. */
  datatype Chat = Chat(response: Response, trace: seq<Call>)

  /** The guarded block's end: a response it returned, or what it threw. */
  datatype Step = Step(out: Outcome<Response>, trace: seq<Call>)

  /** `NextResponse.json(body)` without an explicit status answers 200. */
  const DefaultStatus := 200

  /** The handler's catch clause. A provider `APIError` keeps its status and
      message; since `{ status: undefined }` falls back to the default, an
      `APIError` without a status answers 200. Anything else is a 500. */
  function Catch(e: Thrown): (r: Response)
    ensures e.ApiError? ==> r.body == ErrorBody(e.message) && r.status == e.status.OrElse(DefaultStatus)
    ensures !e.ApiError? ==> r == Response(500, ErrorBody(GenericError))
  {
    match e
    case ApiError(status, m) => Response(status.OrElse(DefaultStatus), ErrorBody(m))
    case _ => Response(500, ErrorBody(GenericError))
  }

  /** The filter's test: a message this run wrote as the assistant. */
  predicate IsReplyTo(m: Message, runId: string) {
    m.runId == Some(runId) && m.role == AssistantRole
  }

  /** `messages.filter(m => m.run_id === run.id && m.role === "assistant")`. */
  function Replies(ms: seq<Message>, runId: string): (rs: seq<Message>)
    ensures forall m :: m in rs ==> m in ms && IsReplyTo(m, runId)
    ensures rs == [] <==> forall i :: 0 <= i < |ms| ==> !IsReplyTo(ms[i], runId)
  {
    if ms == [] then []
    else
      var last := ms[|ms| - 1];
      var init := Replies(ms[..|ms| - 1], runId);
      assert forall m :: m in ms[..|ms| - 1] ==> m in ms;
      assert forall i :: 0 <= i < |ms| - 1 ==> ms[i] == ms[..|ms| - 1][i];
      if IsReplyTo(last, runId) then init + [last] else init
  }

  /** The filter keeps order: the replies are exactly the qualifying messages,
      at increasing list positions. */
  lemma {:induction false} RepliesInOrder(ms: seq<Message>, runId: string) returns (idx: seq<nat>)
    ensures Picks(Replies(ms, runId), ms, idx)
    ensures forall i :: 0 <= i < |ms| ==> (IsReplyTo(ms[i], runId) <==> i in idx)
  {
    if ms == [] {
      idx := [];
    } else {
      var init, last := ms[..|ms| - 1], ms[|ms| - 1];
      var idx0 := RepliesInOrder(init, runId);
      RepliesSnoc(init, last, runId);
      PicksSnoc(Replies(init, runId), init, idx0, last);
      assert ms == init + [last];
      idx := if IsReplyTo(last, runId) then idx0 + [|init|] else idx0;
      forall i | 0 <= i < |ms|
        ensures IsReplyTo(ms[i], runId) <==> i in idx
      {
        if i < |init| {
          assert init[i] == ms[i];
          assert IsReplyTo(init[i], runId) <==> i in idx0;
          assert i in idx0 + [|init|] <==> i in idx0;
        } else {
          assert ms[i] == last;
          assert (idx0 + [|init|])[|idx0|] == i;
        }
      }
    }
  }

  /** Filtering one more message appends it exactly when it qualifies. */
  lemma RepliesSnoc(ms: seq<Message>, m: Message, runId: string)
    ensures Replies(ms + [m], runId) == Replies(ms, runId) + (if IsReplyTo(m, runId) then [m] else [])
  {
    assert (ms + [m])[..|ms|] == ms;
  }

  /** `.pop()` on the filtered list: its last element, if any. */
  function LastReply(ms: seq<Message>, runId: string): (r: Option<Message>)
    ensures r.None? <==> forall i :: 0 <= i < |ms| ==> !IsReplyTo(ms[i], runId)
  {
    var rs := Replies(ms, runId);
    if rs == [] then None else Some(rs[|rs| - 1])
  }

  /** The selected reply is the last message, in list order, that this run
      wrote as the assistant: a qualifying message with no qualifying message
      after it is the one selected. */
  lemma {:induction false} LastReplyIsLastQualifying(ms: seq<Message>, runId: string, i: nat)
    requires i < |ms|
    requires IsReplyTo(ms[i], runId)
    requires forall j :: i < j < |ms| ==> !IsReplyTo(ms[j], runId)
    ensures LastReply(ms, runId) == Some(ms[i])
  {
    var init := ms[..|ms| - 1];
    if i < |ms| - 1 {
      assert !IsReplyTo(ms[|ms| - 1], runId);
      assert Replies(ms, runId) == Replies(init, runId);
      assert init[i] == ms[i];
      LastReplyIsLastQualifying(init, runId, i);
    }
  }

  /** Conversely, a selected reply sits at some index where it qualifies and
      nothing after it does. */
  lemma {:induction false} LastReplyHasIndex(ms: seq<Message>, runId: string) returns (i: nat)
    requires LastReply(ms, runId).Some?
    ensures i < |ms| && ms[i] == LastReply(ms, runId).value
    ensures IsReplyTo(ms[i], runId) && forall j :: i < j < |ms| ==> !IsReplyTo(ms[j], runId)
  {
    var last := ms[|ms| - 1];
    var init := ms[..|ms| - 1];
    if IsReplyTo(last, runId) {
      i := |ms| - 1;
    } else {
      assert Replies(ms, runId) == Replies(init, runId);
      i := LastReplyHasIndex(init, runId);
      assert ms[i] == init[i];
      assert forall j :: i < j < |ms| - 1 ==> ms[j] == init[j];
    }
  }

  /** Where the reply is read: `content[0]` must be a text part. Reading
      `.type` of a missing first part throws a `TypeError`. */
  function ReadReply(reply: Option<Message>, thread: Value): (r: Outcome<Response>)
    ensures r.Threw? <==> reply.Some? && reply.value.content == []
    ensures r.Threw? ==> !r.error.ApiError?
    ensures r.Ok? && r.value.body.ReplyBody? <==> reply.Some? && reply.value.content != [] && reply.value.content[0].TextPart?
    ensures r.Ok? && r.value.body.ReplyBody? ==> r.value == Response(200, ReplyBody(reply.value.content[0].value, thread))
    ensures r.Ok? && !r.value.body.ReplyBody? ==> r.value == Response(500, ErrorBody(NoAssistantResponse))
  {
    match reply
    case None => Ok(Response(500, ErrorBody(NoAssistantResponse)))
    case Some(m) =>
      if m.content == [] then Threw(PlainError("Cannot read properties of undefined (reading 'type')"))
      else
        match m.content[0]
        case OtherPart(_) => Ok(Response(500, ErrorBody(NoAssistantResponse)))
        case TextPart(v) => Ok(Response(DefaultStatus, ReplyBody(v, thread)))
  }

  /** The thread id used: the caller's, unless it is null or undefined
      (`existingThreadId ?? (await openai.beta.threads.create()).id`). */
  function ChooseThread(given: Value, env: ChatEnv): (r: (Outcome<Value>, seq<Call>))
    ensures r.1 == (if Nullish(given) then [CreateThread] else [])
    ensures r.0.Threw? <==> Nullish(given) && env.createThread.Threw?
    ensures r.0.Threw? ==> r.0.error == env.createThread.error
    ensures r.0.Ok? ==> !Nullish(r.0.value)
    ensures r.0.Ok? && Nullish(given) ==> r.0.value == Str(env.createThread.value)
    ensures !Nullish(given) ==> r.0 == Ok(given)
  {
    if Nullish(given) then
      match env.createThread
      case Ok(id) => (Ok(Str(id)), [CreateThread])
      case Threw(e) => (Threw(e), [CreateThread])
    else (Ok(given), [])
  }

  /** From the run onward: the status gate, then the reply. */
  function AfterRun(thread: Value, env: ChatEnv, before: seq<Call>): Step {
    match env.run
    case Threw(e) => Step(Threw(e), before)
    case Ok(run) =>
      if run.status != Completed then Step(Ok(Response(500, ErrorBody(RunFailedPrefix + run.status))), before)
      else
        var t := before + [ListMessages(thread)];
        match env.listMessages
        case Threw(e) => Step(Threw(e), t)
        case Ok(ms) => Step(ReadReply(LastReply(ms, run.id), thread), t)
  }

  /** The body of the handler's `try` once the request is read. */
  function Relay(f: Request, env: ChatEnv): Step
    requires f.Fields?
  {
    if !Truthy(f.assistantId) then Step(Ok(Response(400, ErrorBody(AssistantIdRequired))), [])
    else
      var (thread, t0) := ChooseThread(f.threadId, env);
      match thread
      case Threw(e) => Step(Threw(e), t0)
      case Ok(th) =>
        var t1 := t0 + [CreateMessage(th, UserRole, f.message)];
        match env.addMessage
        case Threw(e) => Step(Threw(e), t1)
        case Ok(_) => AfterRun(th, env, t1 + [CreateAndPollRun(th, f.assistantId)])
  }

  /** The thread the handler works on, when it gets that far. */
  function ThreadUsed(f: Request, env: ChatEnv): Value
    requires f.Fields?
  {
    if Nullish(f.threadId) && env.createThread.Ok? then Str(env.createThread.value) else f.threadId
  }

  /** `POST(req)`. */
  function Post(req: Request, env: ChatEnv): (c: Chat)
    ensures req.Unreadable? ==> c == Chat(Response(500, ErrorBody(GenericError)), [])
    ensures req.Fields? && !Truthy(req.assistantId) ==>
      c == Chat(Response(400, ErrorBody(AssistantIdRequired)), [])
    ensures c.trace != [] ==> req.Fields? && Truthy(req.assistantId)
    ensures c.response.body.ReplyBody? ==>
      && req.Fields? && c.response.status == 200
      && c.response.body.threadId == ThreadUsed(req, env)
      && (!Nullish(req.threadId) ==> c.response.body.threadId == req.threadId)
  {
    match req
    case Unreadable => Chat(Catch(PlainError("Unexpected request body")), [])
    case Fields(_, _, _) =>
      var step := Relay(req, env);
      match step.out
      case Ok(r) => Chat(r, step.trace)
      case Threw(e) => Chat(Catch(e), step.trace)
  }

  /** The first call opens the thread the handler will use: a new one when the
      caller gave none (null or undefined), and otherwise the given one, even
      when it is an empty string. */
  lemma ThreadChoice(req: Request, env: ChatEnv)
    requires req.Fields? && Truthy(req.assistantId)
    ensures var tr := Post(req, env).trace;
            && tr != []
            && (Nullish(req.threadId) ==> tr[0] == CreateThread)
            && (!Nullish(req.threadId) ==> tr[0] == CreateMessage(req.threadId, UserRole, req.message))
  {
  }

  /** The run is started only after exactly one user message carrying the
      request's content was appended to the thread used, and only then. */
  lemma {:induction false} OneUserMessageBeforeRun(req: Request, env: ChatEnv)
    requires req.Fields?
    ensures var tr := Post(req, env).trace;
            var th := ThreadUsed(req, env);
            forall k :: 0 <= k < |tr| && tr[k].CreateAndPollRun? ==>
              && k >= 1 && tr[k] == CreateAndPollRun(th, req.assistantId)
              && tr[k - 1] == CreateMessage(th, UserRole, req.message)
              && forall j :: 0 <= j < |tr| && j != k - 1 ==> !tr[j].CreateMessage?
  {
    var tr := Post(req, env).trace;
    assert tr == Relay(req, env).trace;
    if Truthy(req.assistantId) {
      var (thread, t0) := ChooseThread(req.threadId, env);
      assert forall c :: c in t0 ==> c == CreateThread;
      if thread.Ok? && env.addMessage.Ok? {
        var th := thread.value;
        var t1 := t0 + [CreateMessage(th, UserRole, req.message)];
        var t2 := t1 + [CreateAndPollRun(th, req.assistantId)];
        assert th == ThreadUsed(req, env);
        AfterRunTrace(th, env, t2);
        assert tr == t2 || tr == t2 + [ListMessages(th)];
        assert forall j :: 0 <= j < |tr| && j != |t0| + 1 ==> !tr[j].CreateAndPollRun?;
        assert forall j :: 0 <= j < |tr| && j != |t0| ==> !tr[j].CreateMessage?;
      } else {
        assert forall c :: c in tr ==> !c.CreateAndPollRun?;
      }
    }
  }

  /** From the run onward, at most the message listing is added. */
  lemma AfterRunTrace(thread: Value, env: ChatEnv, before: seq<Call>)
    ensures var tr := AfterRun(thread, env, before).trace;
            tr == before || tr == before + [ListMessages(thread)]
  {
  }

  /** The exact calls once the thread id is settled: at most one thread
      creation, exactly one append, then the run unless the append threw, then
      the listing only after a completed run. */
  lemma ChatTrace(req: Request, env: ChatEnv)
    requires req.Fields? && Truthy(req.assistantId)
    requires Nullish(req.threadId) ==> env.createThread.Ok?
    ensures var th := ThreadUsed(req, env);
            var t1 := (if Nullish(req.threadId) then [CreateThread] else []) + [CreateMessage(th, UserRole, req.message)];
            Post(req, env).trace
            == t1 + (if env.addMessage.Threw? then []
                     else [CreateAndPollRun(th, req.assistantId)]
                          + (if env.run.Ok? && env.run.value.status == Completed then [ListMessages(th)] else []))
  {
  }

  /** A run that ended in any status but "completed" gives a 500 naming that
      status, and the thread's messages are not listed. */
  lemma RunGate(req: Request, env: ChatEnv)
    requires req.Fields? && Truthy(req.assistantId)
    requires Nullish(req.threadId) ==> env.createThread.Ok?
    requires env.addMessage.Ok? && env.run.Ok? && env.run.value.status != Completed
    ensures var c := Post(req, env);
            && c.response == Response(500, ErrorBody(RunFailedPrefix + env.run.value.status))
            && forall call :: call in c.trace ==> !call.ListMessages?
  {
  }

  /** A successful answer is the text of the first content part of the last
      message, in list order, that the run wrote as the assistant. */
  lemma {:induction false} ReplyIsLastOfRun(req: Request, env: ChatEnv)
    requires req.Fields?
    requires Post(req, env).response.body.ReplyBody?
    ensures env.run.Ok? && env.run.value.status == Completed && env.listMessages.Ok?
    ensures var ms := env.listMessages.value;
            exists i :: 0 <= i < |ms| && IsReplyTo(ms[i], env.run.value.id)
              && (forall j :: i < j < |ms| ==> !IsReplyTo(ms[j], env.run.value.id))
              && ms[i].content != [] && ms[i].content[0] == TextPart(Post(req, env).response.body.response)
  {
    var ms := env.listMessages.value;
    var runId := env.run.value.id;
    var i := LastReplyHasIndex(ms, runId);
  }

  /** When the run wrote no assistant message, or its last one does not open
      with text, the answer is a 500 "No assistant response". */
  lemma NoReplyGives500(req: Request, env: ChatEnv)
    requires req.Fields? && Truthy(req.assistantId)
    requires Nullish(req.threadId) ==> env.createThread.Ok?
    requires env.addMessage.Ok? && env.run.Ok? && env.run.value.status == Completed && env.listMessages.Ok?
    requires var r := LastReply(env.listMessages.value, env.run.value.id);
             r.None? || (r.value.content != [] && r.value.content[0].OtherPart?)
    ensures Post(req, env).response == Response(500, ErrorBody(NoAssistantResponse))
  {
  }

  /** A qualifying reply without any content part makes `content[0].type`
      throw a `TypeError`, which answers 500 "An error occurred". */
  lemma EmptyReplyContentIsGenericError(req: Request, env: ChatEnv)
    requires req.Fields? && Truthy(req.assistantId)
    requires Nullish(req.threadId) ==> env.createThread.Ok?
    requires env.addMessage.Ok? && env.run.Ok? && env.run.value.status == Completed && env.listMessages.Ok?
    requires var r := LastReply(env.listMessages.value, env.run.value.id);
             r.Some? && r.value.content == []
    ensures Post(req, env).response == Response(500, ErrorBody(GenericError))
  {
  }

  /** A throwing provider call ends the handler: the response is the catch
      clause's mapping of what was thrown, and no later call is made. */
  lemma AppendFailurePassesThrough(req: Request, env: ChatEnv)
    requires req.Fields? && Truthy(req.assistantId)
    requires Nullish(req.threadId) ==> env.createThread.Ok?
    requires env.addMessage.Threw?
    ensures var c := Post(req, env);
            && c.response == Catch(env.addMessage.error)
            && forall call :: call in c.trace ==> !call.CreateAndPollRun? && !call.ListMessages?
  {
  }

  /** A thread creation that throws answers with the catch clause's mapping
      of its error; nothing else is attempted. */
  lemma ThreadThrowPassesThrough(req: Request, env: ChatEnv)
    requires req.Fields? && Truthy(req.assistantId)
    requires Nullish(req.threadId) && env.createThread.Threw?
    ensures Post(req, env) == Chat(Catch(env.createThread.error), [CreateThread])
  {
  }

  /** A run that throws answers with the catch clause's mapping of its error,
      after the run was started on the thread used; the messages are not
      listed. */
  lemma RunThrowPassesThrough(req: Request, env: ChatEnv)
    requires req.Fields? && Truthy(req.assistantId)
    requires Nullish(req.threadId) ==> env.createThread.Ok?
    requires env.addMessage.Ok? && env.run.Threw?
    ensures var c := Post(req, env);
            && c.response == Catch(env.run.error)
            && c.trace != [] && c.trace[|c.trace| - 1] == CreateAndPollRun(ThreadUsed(req, env), req.assistantId)
            && forall call :: call in c.trace ==> !call.ListMessages?
  {
  }

  /** A message listing that throws, after a completed run, answers with the
      catch clause's mapping of its error; it was the last call made. */
  lemma ListThrowPassesThrough(req: Request, env: ChatEnv)
    requires req.Fields? && Truthy(req.assistantId)
    requires Nullish(req.threadId) ==> env.createThread.Ok?
    requires env.addMessage.Ok? && env.run.Ok? && env.run.value.status == Completed
    requires env.listMessages.Threw?
    ensures var c := Post(req, env);
            && c.response == Catch(env.listMessages.error)
            && c.trace != [] && c.trace[|c.trace| - 1] == ListMessages(ThreadUsed(req, env))
  {
  }

  /** When the run's last assistant message opens with a text part, the
      answer is a 200 carrying that text and the thread used. */
  lemma TextReplyAnswers(req: Request, env: ChatEnv, v: string)
    requires req.Fields? && Truthy(req.assistantId)
    requires Nullish(req.threadId) ==> env.createThread.Ok?
    requires env.addMessage.Ok? && env.run.Ok? && env.run.value.status == Completed && env.listMessages.Ok?
    requires var r := LastReply(env.listMessages.value, env.run.value.id);
             r.Some? && r.value.content != [] && r.value.content[0] == TextPart(v)
    ensures Post(req, env).response == Response(200, ReplyBody(v, ThreadUsed(req, env)))
  {
  }

  /** The catch clause never answers with a reply: an `APIError` keeps its
      status, where it has one, and its message, and every other thrown
      value is a 500 with the generic text. */
  lemma CatchKeepsProviderErrors(e: Thrown)
    ensures Catch(e).body.ErrorBody?
    ensures Catch(e).body.error == (if e.ApiError? then ErrorText(e) else GenericError)
    ensures e.ApiError? && e.status.Some? ==> Catch(e).status == e.status.value
    ensures !e.ApiError? ==> Catch(e).status == 500
  {
  }

  /** The pass-through on a concrete case: a provider 404 stays a 404 with the
      provider's message, while a connection failure, whose `APIError` has no
      status, is answered with status 200. */
  lemma ApiErrorStatusExamples(m: string)
    ensures Catch(ApiError(Some(404), m)) == Response(404, ErrorBody(m))
    ensures Catch(ApiError(None, m)) == Response(200, ErrorBody(m))
    ensures Catch(NonError) == Response(500, ErrorBody(GenericError))
  {
  }
}

=== FILE: delete_action.dfy ===
/**
 `deleteAssistant`: the explicit removal of one chat session. It reads the
 session row, then tries to delete the provider resources in a fixed order
 (the vector store's files, the vector store, the assistant, the thread),
 shrugging off each failure, and finally deletes the row. Only a failure of
 the two database calls turns the result into an error.
 */
module DeleteAction {
  import opened Js
  import opened Provider
  import opened SessionStore

  const NotFoundMessage := "Assistant not found in database."
  const DeletedMessage := "Assistant and all associated resources deleted successfully."
  const FailurePrefix := "Failed to delete assistant: "

  /** The outcome of every call `deleteAssistant` can make: the row lookup,
      the file listing (its first page, `.data`), the delete of each listed file (by position), the
      vector store, assistant and thread deletes, and the row delete. */
  datatype DeleteEnv = DeleteEnv(
    lookup: Outcome<()>,
    listFiles: Outcome<seq<string>>,
    fileDeletes: seq<Outcome<()>>,
    storeDelete: Outcome<()>,
    assistantDelete: Outcome<()>,
    threadDelete: Outcome<()>,
    rowDelete: Outcome<()>)
  {
    /** One file-delete outcome per listed file. */
    predicate WellFormed() {
      listFiles.Ok? ==> |fileDeletes| == |listFiles.value|
    }
  }

  /** The action's result, the provider calls it attempted in order, and the
      table afterwards. */
  datatype Deletion = Deletion(status: Status, message: string, trace: seq<Call>, table: Table)

  /** A call wrapped in `try { … } catch { console.warn(…) }`: it is attempted,
      and execution carries on whatever it does. */
  function Tolerated(c: Call, o: Outcome<()>): seq<Call> {
    match o
    case Ok(_) => [c]
    case Threw(_) => [c]
  }

  /** The loop over the listed files: each file is deleted in turn, and a
      failed delete is logged without leaving the loop. */
  function DeleteFiles(ids: seq<string>, outcomes: seq<Outcome<()>>): (calls: seq<Call>)
    requires |outcomes| == |ids|
    ensures |calls| == |ids|
    ensures forall i :: 0 <= i < |ids| ==> calls[i] == DeleteFile(ids[i])
  {
    if ids == [] then []
    else Tolerated(DeleteFile(ids[0]), outcomes[0]) + DeleteFiles(ids[1..], outcomes[1..])
  }

  /** The first guarded block: list the store's files, delete each, delete
      the store. A throwing listing ends the block before any delete; the
      store delete is the block's last call, so its failure skips nothing. */
  function StorePhase(storeId: string, env: DeleteEnv): seq<Call>
    requires env.WellFormed()
  {
    [ListVectorStoreFiles(storeId)] +
    match env.listFiles
    case Threw(_) => []
    case Ok(ids) => DeleteFiles(ids, env.fileDeletes) + Tolerated(DeleteVectorStore(storeId), env.storeDelete)
  }

  /** Everything the action asks of the provider once the row is found. The
      assistant delete uses the requested id; the others use the row's ids. */
  function ProviderCleanup(assistantId: string, row: Row, env: DeleteEnv): seq<Call>
    requires env.WellFormed()
  {
    StorePhase(row.vectorStoreId, env)
    + Tolerated(DeleteAssistant(assistantId), env.assistantDelete)
    + Tolerated(DeleteThread(row.threadId), env.threadDelete)
  }

  /** `deleteAssistant(assistantId)` against table `t`. */
  function DeleteAssistantAction(assistantId: string, t: Table, env: DeleteEnv): (d: Deletion)
    requires env.WellFormed()
    ensures d.status == Success <==> env.lookup.Ok? && assistantId in Keys(t) && env.rowDelete.Ok?
    ensures d.status == Success ==> d.message == DeletedMessage && d.table == DeleteWhere(t, assistantId)
    ensures d.status == Error ==> d.table == t
    ensures env.lookup.Threw? ==> d.message == FailurePrefix + ErrorText(env.lookup.error)
    ensures env.lookup.Ok? && assistantId !in Keys(t) ==> d.message == NotFoundMessage
    ensures env.lookup.Ok? && assistantId in Keys(t) && env.rowDelete.Threw? ==>
      d.message == FailurePrefix + ErrorText(env.rowDelete.error)
    ensures d.trace != [] <==> env.lookup.Ok? && assistantId in Keys(t)
  {
    match env.lookup
    case Threw(e) => Deletion(Error, FailurePrefix + ErrorText(e), [], t)
    case Ok(_) =>
      match Lookup(t, assistantId)
      case None => Deletion(Error, NotFoundMessage, [], t)
      case Some(row) =>
        var trace := ProviderCleanup(assistantId, row, env);
        match env.rowDelete
        case Threw(e) => Deletion(Error, FailurePrefix + ErrorText(e), trace, t)
        case Ok(_) => Deletion(Success, DeletedMessage, trace, DeleteWhere(t, assistantId))
  }

  /** For a found row whose files were listed, the calls are, in this order:
      the listing, one delete per listed file in list order, the vector store
      delete, the assistant delete and the thread delete, with the stored ids. */
  lemma FoundRowCallOrder(assistantId: string, t: Table, env: DeleteEnv, row: Row)
    requires env.WellFormed() && env.lookup.Ok? && env.listFiles.Ok?
    requires Lookup(t, assistantId) == Some(row)
    ensures var tr := DeleteAssistantAction(assistantId, t, env).trace;
            var ids := env.listFiles.value;
            && |tr| == |ids| + 4
            && tr[0] == ListVectorStoreFiles(row.vectorStoreId)
            && (forall i :: 0 <= i < |ids| ==> tr[1 + i] == DeleteFile(ids[i]))
            && tr[|ids| + 1] == DeleteVectorStore(row.vectorStoreId)
            && tr[|ids| + 2] == DeleteAssistant(assistantId)
            && tr[|ids| + 3] == DeleteThread(row.threadId)
  {
    var ids := env.listFiles.value;
    var files := DeleteFiles(ids, env.fileDeletes);
    var tail := [DeleteVectorStore(row.vectorStoreId), DeleteAssistant(assistantId), DeleteThread(row.threadId)];
    assert DeleteAssistantAction(assistantId, t, env).trace == ProviderCleanup(assistantId, row, env);
    CleanupShape(assistantId, row, env);
    Concat3Indexing(ListVectorStoreFiles(row.vectorStoreId), files, tail);
  }

  lemma Concat3Indexing(head: Call, mid: seq<Call>, tail: seq<Call>)
    ensures var s := [head] + (mid + tail);
            && |s| == 1 + |mid| + |tail|
            && s[0] == head
            && (forall i :: 0 <= i < |mid| ==> s[1 + i] == mid[i])
            && (forall j :: 0 <= j < |tail| ==> s[1 + |mid| + j] == tail[j])
  {
  }

  lemma CleanupShape(assistantId: string, row: Row, env: DeleteEnv)
    requires env.WellFormed() && env.listFiles.Ok?
    ensures ProviderCleanup(assistantId, row, env)
         == [ListVectorStoreFiles(row.vectorStoreId)]
            + (DeleteFiles(env.listFiles.value, env.fileDeletes)
               + [DeleteVectorStore(row.vectorStoreId), DeleteAssistant(assistantId), DeleteThread(row.threadId)])
  {
  }

  /** A failed listing skips the file deletes and the vector store delete,
      but the assistant and thread deletes are still attempted. */
  lemma ListingFailureSkipsStore(assistantId: string, t: Table, env: DeleteEnv, row: Row)
    requires env.WellFormed() && env.lookup.Ok? && env.listFiles.Threw?
    requires Lookup(t, assistantId) == Some(row)
    ensures DeleteAssistantAction(assistantId, t, env).trace
         == [ListVectorStoreFiles(row.vectorStoreId), DeleteAssistant(assistantId), DeleteThread(row.threadId)]
  {
  }

  /** The assistant and the thread are each asked to be deleted exactly once,
      whatever happened before. */
  lemma {:induction false} AssistantAndThreadOnce(assistantId: string, t: Table, env: DeleteEnv)
    requires env.WellFormed() && env.lookup.Ok? && assistantId in Keys(t)
    ensures var d := DeleteAssistantAction(assistantId, t, env);
            var row := Lookup(t, assistantId).value;
            && multiset(d.trace)[DeleteAssistant(assistantId)] == 1
            && multiset(d.trace)[DeleteThread(row.threadId)] == 1
  {
    var row := Lookup(t, assistantId).value;
    var store := StorePhase(row.vectorStoreId, env);
    StorePhaseDeletesNoAssistantOrThread(row.vectorStoreId, env);
    assert DeleteAssistant(assistantId) !in store && DeleteThread(row.threadId) !in store;
    var d := DeleteAssistantAction(assistantId, t, env);
    assert d.trace == store + [DeleteAssistant(assistantId)] + [DeleteThread(row.threadId)];
    assert multiset(d.trace) == multiset(store) + multiset{DeleteAssistant(assistantId)} + multiset{DeleteThread(row.threadId)};
  }

  lemma StorePhaseDeletesNoAssistantOrThread(storeId: string, env: DeleteEnv)
    requires env.WellFormed()
    ensures forall c :: c in StorePhase(storeId, env) ==> !c.DeleteAssistant? && !c.DeleteThread?
  {
    if env.listFiles.Ok? {
      var files := DeleteFiles(env.listFiles.value, env.fileDeletes);
      assert forall c :: c in files ==> c.DeleteFile?;
    }
  }

  /** Failures of the file, vector store, assistant and thread deletes leave
      no trace in the outcome: two runs that differ only in those agree on
      the result, the calls attempted and the table. */
  lemma {:induction false} ToleratesDeleteFailures(assistantId: string, t: Table, env1: DeleteEnv, env2: DeleteEnv)
    requires env1.WellFormed() && env2.WellFormed()
    requires env1.lookup == env2.lookup && env1.listFiles == env2.listFiles && env1.rowDelete == env2.rowDelete
    ensures DeleteAssistantAction(assistantId, t, env1) == DeleteAssistantAction(assistantId, t, env2)
  {
    if env1.lookup.Ok? && assistantId in Keys(t) {
      var row := Lookup(t, assistantId).value;
      if env1.listFiles.Ok? {
        DeleteFilesIgnoresOutcomes(env1.listFiles.value, env1.fileDeletes, env2.fileDeletes);
      }
      assert StorePhase(row.vectorStoreId, env1) == StorePhase(row.vectorStoreId, env2);
      assert ProviderCleanup(assistantId, row, env1) == ProviderCleanup(assistantId, row, env2);
    }
  }

  /** Whether an individual file delete fails does not change which deletes
      are attempted after it. */
  lemma {:induction false} DeleteFilesIgnoresOutcomes(ids: seq<string>, o1: seq<Outcome<()>>, o2: seq<Outcome<()>>)
    requires |o1| == |ids| && |o2| == |ids|
    ensures DeleteFiles(ids, o1) == DeleteFiles(ids, o2)
  {
    if ids != [] {
      DeleteFilesIgnoresOutcomes(ids[1..], o1[1..], o2[1..]);
    }
  }

  /** When the row exists and both database calls succeed, the action reports
      success and exactly that key leaves the table, whatever the provider did;
      every other session keeps its row and its position. */
  lemma RowRemovedRegardless(assistantId: string, t: Table, env: DeleteEnv, k: nat)
    requires env.WellFormed() && env.lookup.Ok? && env.rowDelete.Ok?
    requires ValidTable(t) && k < |t| && t[k].assistantId == assistantId
    ensures var d := DeleteAssistantAction(assistantId, t, env);
            && d.status == Success
            && AsMap(d.table) == AsMap(t) - {assistantId}
            && d.table == t[..k] + t[k + 1..]
            && ValidTable(d.table)
  {
    assert t[k] in t;
    SucceedsWithDeleteWhere(assistantId, t, env);
    DeleteWhereIsMapRemove(t, assistantId);
    DeleteWhereSplices(t, assistantId, k);
    DeleteWhereValid(t, assistantId);
  }

  lemma SucceedsWithDeleteWhere(assistantId: string, t: Table, env: DeleteEnv)
    requires env.WellFormed() && env.lookup.Ok? && env.rowDelete.Ok? && assistantId in Keys(t)
    ensures var d := DeleteAssistantAction(assistantId, t, env);
            d.status == Success && d.table == DeleteWhere(t, assistantId)
  {
  }

  /** Deleting the same session twice: the second call finds no row, reports
      not found, attempts no provider call and leaves the table alone. */
  lemma DeleteTwiceReportsNotFound(assistantId: string, t: Table, env1: DeleteEnv, env2: DeleteEnv)
    requires env1.WellFormed() && env2.WellFormed()
    requires DeleteAssistantAction(assistantId, t, env1).status == Success
    requires env2.lookup.Ok?
    ensures var t1 := DeleteAssistantAction(assistantId, t, env1).table;
            var d2 := DeleteAssistantAction(assistantId, t1, env2);
            && d2.status == Error && d2.message == NotFoundMessage
            && d2.trace == [] && d2.table == t1
  {
    DeleteWhereKeys(t, assistantId);
  }
}

=== FILE: file_tally.dfy ===
/**
 The file count and byte total that both plain upload entry points compute
 over a form's values: only `File` values count, strings are skipped.
 */
module FileTally {
  import opened Js
  import opened Forms

  const UploadFailedMessage := "File upload failed."

  /** The `File` values among `vs`, in order. */
  function FilesIn(vs: seq<FormValue>): (fs: seq<FormValue>)
    ensures |fs| <= |vs|
  {
    if vs == [] then []
    else
      var init := vs[..|vs| - 1];
      var last := vs[|vs| - 1];
      var before := FilesIn(init);
      if last.FileValue? then before + [last] else before
  }

  /** Every value kept is a file taken from the input. */
  lemma {:induction false} FilesInMembers(vs: seq<FormValue>)
    ensures forall f :: f in FilesIn(vs) ==> f.FileValue? && f in vs
  {
    if vs != [] {
      var init := vs[..|vs| - 1];
      FilesInMembers(init);
      assert forall f :: f in init ==> f in vs;
    }
  }

  /** No file is kept exactly when every value is a string. */
  lemma {:induction false} NoFilesIff(vs: seq<FormValue>)
    ensures FilesIn(vs) == [] <==> forall i :: 0 <= i < |vs| ==> vs[i].TextValue?
  {
    if vs != [] {
      var init := vs[..|vs| - 1];
      NoFilesIff(init);
      assert forall i :: 0 <= i < |init| ==> init[i] == vs[i];
    }
  }

  /** The sum of the sizes of the files in `fs`. */
  function TotalSize(fs: seq<FormValue>): (t: nat)
    ensures forall i :: 0 <= i < |fs| && fs[i].FileValue? ==> fs[i].size <= t
  {
    if fs == [] then 0
    else TotalSize(fs[..|fs| - 1]) + (if fs[|fs| - 1].FileValue? then fs[|fs| - 1].size else 0)
  }

  /** The loop `for (const file of values) if (file instanceof File) { totalSize += file.size; fileCount++; }`. */
  method Tally(vs: seq<FormValue>) returns (count: nat, total: nat)
    ensures count == |FilesIn(vs)|
    ensures total == TotalSize(FilesIn(vs))
  {
    count, total := 0, 0;
    var i := 0;
    while i < |vs|
      invariant 0 <= i <= |vs|
      invariant count == |FilesIn(vs[..i])|
      invariant total == TotalSize(FilesIn(vs[..i]))
    {
      var v := vs[i];
      assert vs[..i + 1] == vs[..i] + [v];
      FilesInSnoc(vs[..i], v);
      if v.FileValue? {
        total := total + v.size;
        count := count + 1;
      }
      i := i + 1;
    }
    assert vs[..|vs|] == vs;
  }

  /** Appending one value appends it to the files exactly when it is a file,
      and adds its size to the total. */
  lemma FilesInSnoc(vs: seq<FormValue>, v: FormValue)
    ensures FilesIn(vs + [v]) == FilesIn(vs) + (if v.FileValue? then [v] else [])
    ensures TotalSize(FilesIn(vs + [v])) == TotalSize(FilesIn(vs)) + (if v.FileValue? then v.size else 0)
  {
    var vs' := vs + [v];
    assert vs'[..|vs'| - 1] == vs;
    if v.FileValue? {
      var fs := FilesIn(vs) + [v];
      assert fs[..|fs| - 1] == FilesIn(vs);
    }
  }

  /** A string value leaves the files, hence the count and the total, as they were. */
  lemma TextValueIgnored(vs: seq<FormValue>, s: string)
    ensures FilesIn(vs + [TextValue(s)]) == FilesIn(vs)
  {
    FilesInSnoc(vs, TextValue(s));
  }

  /** A `File` value adds exactly one to the count and its size to the total. */
  lemma FileValueCounted(vs: seq<FormValue>, name: string, size: nat)
    ensures |FilesIn(vs + [FileValue(name, size)])| == |FilesIn(vs)| + 1
    ensures TotalSize(FilesIn(vs + [FileValue(name, size)])) == TotalSize(FilesIn(vs)) + size
  {
    FilesInSnoc(vs, FileValue(name, size));
  }

  /** `${fileCount} file(s) with a total of ${totalSize} bytes uploaded successfully.` */
  function SuccessMessage(count: nat, total: nat): (m: string)
    ensures m != [] && IsDigit(m[0])
  {
    DecimalString(count) + MidText + DecimalString(total) + TailText
  }

  const MidText := " file(s) with a total of "
  const TailText := " bytes uploaded successfully."

  /** The success message pins down both numbers: different counts or totals
      never produce the same text. */
  lemma SuccessMessageInjective(c1: nat, t1: nat, c2: nat, t2: nat)
    requires SuccessMessage(c1, t1) == SuccessMessage(c2, t2)
    ensures c1 == c2 && t1 == t2
  {
    var rest1 := MidText + DecimalString(t1) + TailText;
    var rest2 := MidText + DecimalString(t2) + TailText;
    SplitMessage(c1, t1);
    SplitMessage(c2, t2);
    DigitPrefixUnique(DecimalString(c1), rest1, DecimalString(c2), rest2);
    DecimalStringInjective(c1, c2);
    assert rest1[|MidText|..] == DecimalString(t1) + TailText;
    assert rest2[|MidText|..] == DecimalString(t2) + TailText;
    DigitPrefixUnique(DecimalString(t1), TailText, DecimalString(t2), TailText);
    DecimalStringInjective(t1, t2);
  }

  /** A success message is never the no-files message: it starts with a digit. */
  lemma SuccessIsNotNoFiles(c: nat, t: nat)
    ensures SuccessMessage(c, t) != NoFilesMessage
  {
    SplitMessage(c, t);
    assert SuccessMessage(c, t)[0] == DecimalString(c)[0];
    assert NoFilesMessage[0] == 'N';
  }

  /** The message is the count's digits followed by text starting with a space. */
  lemma SplitMessage(c: nat, t: nat)
    ensures SuccessMessage(c, t) == DecimalString(c) + (MidText + DecimalString(t) + TailText)
    ensures (MidText + DecimalString(t) + TailText)[0] == ' '
    ensures TailText[0] == ' '
  {
    var rest := MidText + DecimalString(t) + TailText;
    assert rest == MidText + (DecimalString(t) + TailText);
    assert rest[0] == MidText[0] == ' ';
  }
}

/**
 `POST /api/upload`: counts the files of a multipart request and reports
 how many bytes arrived. Nothing is stored.
 */
module UploadRoute {
  import opened Forms
  import opened FileTally

  datatype RouteResponse = RouteResponse(status: int, message: string)

  /** `POST(request)`. */
  method Post(request: ActionArg) returns (r: RouteResponse)
    ensures request.NotAForm? ==> r == RouteResponse(500, UploadFailedMessage)
    ensures request.Form? ==>
      var fs := FilesIn(Values(request.entries));
      && (fs == [] ==> r == RouteResponse(400, NoFilesMessage))
      && (fs != [] ==> r == RouteResponse(200, SuccessMessage(|fs|, TotalSize(fs))))
    ensures request.Form? ==>
      (r.status == 400 <==> forall i :: 0 <= i < |request.entries| ==> request.entries[i].value.TextValue?)
  {
    match request
    case NotAForm(_) =>
      r := RouteResponse(500, UploadFailedMessage);
    case Form(entries) =>
      var count, total := Tally(Values(entries));
      NoFilesIff(Values(entries));
      if count == 0 {
        r := RouteResponse(400, NoFilesMessage);
      } else {
        r := RouteResponse(200, SuccessMessage(count, total));
      }
  }
}

/**
 `uploadFiles` in `uploadAction.ts`: the same count as the upload route,
 as a server action that answers with a message only.
 */
module UploadLogAction {
  import opened Forms
  import opened FileTally

  /** `uploadFiles(formData)`. */
  method UploadFiles(arg: ActionArg) returns (message: string)
    ensures arg.NotAForm? ==> message == UploadFailedMessage
    ensures arg.Form? ==>
      var fs := FilesIn(Values(arg.entries));
      && (fs == [] ==> message == NoFilesMessage)
      && (fs != [] ==> message == SuccessMessage(|fs|, TotalSize(fs)))
    ensures arg.Form? ==>
      (message == NoFilesMessage <==> forall i :: 0 <= i < |arg.entries| ==> arg.entries[i].value.TextValue?)
  {
    match arg
    case NotAForm(_) =>
      message := UploadFailedMessage;
    case Form(entries) =>
      var count, total := Tally(Values(entries));
      NoFilesIff(Values(entries));
      SuccessIsNotNoFiles(count, total);
      if count == 0 {
        message := NoFilesMessage;
      } else {
        message := SuccessMessage(count, total);
      }
  }
}

=== FILE: forms.dfy ===
/**
 Multipart form data as the server sees it: an ordered list of (name, value)
 entries whose values are either uploaded files or plain strings.
 */
module Forms {
  import opened Js

  /** The reply every upload entry point gives when the form holds no file. */
  const NoFilesMessage := "No files were uploaded."

  /** A `File` (its name and byte size) or a string field. */
  datatype FormValue = FileValue(name: string, size: nat) | TextValue(text: string)

  datatype FormEntry = FormEntry(key: string, value: FormValue)

  /** The form an entry point works on. A server action is normally handed a
      `FormData`, but a hand-made request can hand it some other value, on
      which calling a `FormData` method throws; a route handler's
      `request.formData()` throws when the body is not form data. */
  datatype ActionArg = Form(entries: seq<FormEntry>) | NotAForm(fault: Thrown)

  /** `formData.getAll(key)`: the values filed under `key`, in entry order,
      whatever their kind. */
  function GetAll(entries: seq<FormEntry>, key: string): (vs: seq<FormValue>)
    ensures |vs| <= |entries|
  {
    if entries == [] then []
    else
      var rest := GetAll(entries[1..], key);
      if entries[0].key == key then [entries[0].value] + rest else rest
  }

  /** `getAll` keeps entry order: its values are those of exactly the entries
      filed under `key`, at increasing entry positions. */
  lemma {:induction false} GetAllInOrder(entries: seq<FormEntry>, key: string) returns (idx: seq<nat>)
    ensures Picks(GetAll(entries, key), Values(entries), idx)
    ensures forall i :: 0 <= i < |entries| ==> (entries[i].key == key <==> i in idx)
  {
    if entries == [] {
      idx := [];
    } else {
      var tail := entries[1..];
      var idx0 := GetAllInOrder(tail, key);
      assert Values(entries) == [entries[0].value] + Values(tail);
      PicksCons(GetAll(tail, key), Values(tail), idx0, entries[0].value);
      if entries[0].key == key {
        idx := [0] + Shift(idx0);
        assert GetAll(entries, key) == [entries[0].value] + GetAll(tail, key);
      } else {
        idx := Shift(idx0);
        assert GetAll(entries, key) == GetAll(tail, key);
      }
      forall i | 0 < i < |entries|
        ensures entries[i].key == key <==> i in idx
      {
        assert entries[i] == tail[i - 1];
        assert i in idx <==> i - 1 in idx0;
      }
    }
  }

  /** `getAll` returns the values of the entries filed under `key`, and every
      one of them. */
  lemma GetAllMembers(entries: seq<FormEntry>, key: string)
    ensures forall v :: v in GetAll(entries, key) ==> FormEntry(key, v) in entries
    ensures forall e :: e in entries && e.key == key ==> e.value in GetAll(entries, key)
  {
    var vs := GetAll(entries, key);
    var idx := GetAllInOrder(entries, key);
    forall v | v in vs
      ensures FormEntry(key, v) in entries
    {
      var k :| 0 <= k < |vs| && vs[k] == v;
      assert entries[idx[k]] == FormEntry(key, v);
    }
    forall e | e in entries && e.key == key
      ensures e.value in vs
    {
      var i :| 0 <= i < |entries| && entries[i] == e;
      var k :| 0 <= k < |idx| && idx[k] == i;
      assert vs[k] == e.value;
    }
  }

  /** Every position moved one place on. */
  function Shift(idx: seq<nat>): (r: seq<nat>)
    ensures |r| == |idx| && forall k :: 0 <= k < |idx| ==> r[k] == idx[k] + 1
  {
    seq(|idx|, k requires 0 <= k < |idx| => idx[k] + 1)
  }

  /** A selection stays one when an element is put in front of its source,
      whether or not that element is selected too. */
  lemma PicksCons<T>(rs: seq<T>, xs: seq<T>, idx: seq<nat>, x: T)
    requires Picks(rs, xs, idx)
    ensures Picks(rs, [x] + xs, Shift(idx))
    ensures Picks([x] + rs, [x] + xs, [0] + Shift(idx))
    ensures 0 !in Shift(idx)
    ensures forall i :: 0 < i <= |xs| ==> (i in Shift(idx) <==> i - 1 in idx)
  {
    var sh := Shift(idx);
    forall i | 0 <= i <= |xs|
      ensures i in sh <==> 0 < i && i - 1 in idx
    {
      if i in sh {
        var k :| 0 <= k < |sh| && sh[k] == i;
        assert idx[k] == i - 1;
      }
      if 0 < i && i - 1 in idx {
        var k :| 0 <= k < |idx| && idx[k] == i - 1;
        assert sh[k] == i;
      }
    }
  }

  /** `getAll` comes back empty exactly when no entry carries that key. */
  lemma GetAllEmpty(entries: seq<FormEntry>, key: string)
    ensures GetAll(entries, key) == [] <==> forall i :: 0 <= i < |entries| ==> entries[i].key != key
  {
    if GetAll(entries, key) == [] {
      forall i | 0 <= i < |entries|
        ensures entries[i].key != key
      {
        assert entries[i] in entries;
      }
    }
  }

  /** `formData.values()`: every entry's value, in entry order. */
  function Values(entries: seq<FormEntry>): (vs: seq<FormValue>)
    ensures |vs| == |entries|
    ensures forall i :: 0 <= i < |entries| ==> vs[i] == entries[i].value
  {
    seq(|entries|, i requires 0 <= i < |entries| => entries[i].value)
  }
}

=== FILE: js.dfy ===
/**
 The small part of the JavaScript runtime the server code leans on: optional
 values, JSON-derived values with their truthiness and nullishness, thrown
 values and the message an `Error` carries, `String.prototype.trimStart`, and
 the decimal rendering of a non-negative integer inside a template literal.
 */
module Js {

  /** A field the source may leave `undefined` or `null` (`None`), or one
      that holds a value. */
  datatype Option<T> = None | Some(value: T) {
    /** `field ?? fallback`. */
    function OrElse(fallback: T): T {
      if Some? then value else fallback
    }
  }

  /** A value read out of a parsed JSON request body. A field the body does
      not carry reads as `Undefined`; arrays and objects are `Compound`. */
  datatype Value = Undefined | Null | Bool(b: bool) | Num(n: real) | Str(s: string) | Compound

  /** JavaScript truthiness (`if (!v)` fails exactly for the falsy values);
      JSON cannot produce NaN, so a number is falsy only when it is zero. */
  predicate Truthy(v: Value): (b: bool)
    ensures !b <==> v == Undefined || v == Null || v == Bool(false) || v == Num(0.0) || v == Str("")
  {
    match v
    case Undefined => false
    case Null => false
    case Bool(b) => b
    case Num(n) => n != 0.0
    case Str(s) => s != ""
    case Compound => true
  }

  /** The values on which `a ?? b` falls through to `b`. */
  predicate Nullish(v: Value): (b: bool)
    ensures b ==> !Truthy(v)
  {
    v.Undefined? || v.Null?
  }

  /** Nullish values are falsy, but the converse fails: `""`, `0` and `false`
      are falsy yet not nullish, so `??` keeps them. */
  lemma NullishIsFalsy(v: Value)
    ensures Nullish(v) ==> !Truthy(v)
    ensures !Nullish(Str("")) && !Truthy(Str(""))
  {
  }

  /** What a `catch` clause can receive. `ApiError` is the provider SDK's error
      class (a subclass of `Error`); its HTTP status is absent for connection
      failures. `PlainError` is any other `Error`; `NonError` is a thrown value
      that is not an `Error` at all. */
  datatype Thrown = ApiError(status: Option<int>, message: string) | PlainError(message: string) | NonError

  const UnknownErrorText := "An unknown error occurred."

  /** `error instanceof Error ? error.message : "An unknown error occurred."`:
      an `Error`, provider errors included, contributes its own message; any
      other thrown value contributes the fixed fallback text. */
  function ErrorText(e: Thrown): (t: string)
    ensures !e.NonError? ==> t == e.message
    ensures e.NonError? ==> t == UnknownErrorText
  {
    match e
    case ApiError(_, m) => m
    case PlainError(m) => m
    case NonError => UnknownErrorText
  }

  /** `rs` lists elements of `xs` at strictly increasing positions `idx`: the
      shape of an `Array.prototype.filter` result, or of any other selection
      that keeps the order of its source. */
  ghost predicate Picks<T>(rs: seq<T>, xs: seq<T>, idx: seq<nat>) {
    && |idx| == |rs|
    && (forall k :: 0 <= k < |idx| ==> idx[k] < |xs| && rs[k] == xs[idx[k]])
    && (forall k, l :: 0 <= k < l < |idx| ==> idx[k] < idx[l])
  }

  /** A selection stays one when an element is appended to its source,
      whether or not that element is selected too. */
  lemma PicksSnoc<T>(rs: seq<T>, xs: seq<T>, idx: seq<nat>, x: T)
    requires Picks(rs, xs, idx)
    ensures Picks(rs, xs + [x], idx)
    ensures Picks(rs + [x], xs + [x], idx + [|xs|])
    ensures |xs| !in idx
    ensures forall i :: 0 <= i < |xs| ==> (i in idx + [|xs|] <==> i in idx)
  {
    assert forall k :: 0 <= k < |idx| ==> (xs + [x])[idx[k]] == xs[idx[k]];
  }

  /** The characters `trimStart` removes: the ECMAScript WhiteSpace
      (TAB, VT, FF, ZWNBSP and every space separator of category Zs) and
      LineTerminator (LF, CR, LS, PS) code points. */
  predicate IsWhitespace(c: char) {
    || c == '\t' || c == '\U{000B}' || c == '\U{000C}' || c == ' '
    || c == '\U{00A0}' || c == '\U{FEFF}' || c == '\U{1680}'
    || ('\U{2000}' <= c <= '\U{200A}')
    || c == '\U{202F}' || c == '\U{205F}' || c == '\U{3000}'
    || c == '\n' || c == '\r' || c == '\U{2028}' || c == '\U{2029}'
  }

  /** `s.trimStart()`: the result is the suffix of `s` left after dropping
      every leading whitespace character, and it does not itself start with one. */
  function TrimStart(s: string): (r: string)
    ensures |r| <= |s| && r == s[|s| - |r|..]
    ensures forall i :: 0 <= i < |s| - |r| ==> IsWhitespace(s[i])
    ensures r == [] || !IsWhitespace(r[0])
  {
    if s == [] || !IsWhitespace(s[0]) then s else TrimStart(s[1..])
  }

  /** Trimming twice trims nothing more. */
  lemma {:induction false} TrimStartIdempotent(s: string)
    ensures TrimStart(TrimStart(s)) == TrimStart(s)
  {
    var r := TrimStart(s);
    assert r == [] || !IsWhitespace(r[0]);
  }

  /** Leading whitespace is invisible to `trimStart`. */
  lemma {:induction false} TrimStartSkipsWhitespace(w: string, s: string)
    requires forall i :: 0 <= i < |w| ==> IsWhitespace(w[i])
    ensures TrimStart(w + s) == TrimStart(s)
  {
    if w != [] {
      var ws := w + s;
      assert ws[0] == w[0] && IsWhitespace(w[0]);
      assert ws[1..] == w[1..] + s;
      assert TrimStart(ws) == TrimStart(ws[1..]);
      TrimStartSkipsWhitespace(w[1..], s);
    } else {
      assert w + s == s;
    }
  }

  /** Once some non-whitespace character remains, appending text only extends
      the trimmed result. */
  lemma {:induction false} TrimStartAppend(s: string, t: string)
    requires TrimStart(s) != []
    ensures TrimStart(s + t) == TrimStart(s) + t
  {
    assert (s + t)[0] == s[0];
    if IsWhitespace(s[0]) {
      assert TrimStart(s) == TrimStart(s[1..]);
      assert (s + t)[1..] == s[1..] + t;
      TrimStartAppend(s[1..], t);
    }
  }

  /** An input made only of whitespace trims to the empty string. */
  lemma {:induction false} TrimStartAllWhitespace(s: string)
    requires forall i :: 0 <= i < |s| ==> IsWhitespace(s[i])
    ensures TrimStart(s) == []
  {
    if s != [] {
      TrimStartAllWhitespace(s[1..]);
    }
  }

  predicate IsDigit(c: char) {
    '0' <= c <= '9'
  }

  predicate AllDigits(s: string) {
    forall i :: 0 <= i < |s| ==> IsDigit(s[i])
  }

  function DigitChar(d: nat): (c: char)
    requires d < 10
    ensures IsDigit(c)
  {
    "0123456789"[d]
  }

  function DigitValue(c: char): (d: nat)
    requires IsDigit(c)
    ensures d < 10
  {
    (c as int - '0' as int) as nat
  }

  /** `${n}` for a non-negative integer: its shortest decimal numeral. */
  function DecimalString(n: nat): (r: string)
    ensures |r| >= 1 && AllDigits(r)
    ensures |r| > 1 ==> r[0] != '0'
    decreases n
  {
    if n < 10 then [DigitChar(n)] else DecimalString(n / 10) + [DigitChar(n % 10)]
  }

  /** The value a string of decimal digits denotes. */
  function DecimalValue(s: string): nat
    requires AllDigits(s)
  {
    if s == [] then 0 else 10 * DecimalValue(s[..|s| - 1]) + DigitValue(s[|s| - 1])
  }

  /** Reading the numeral back gives the number: `${n}` loses nothing. */
  lemma {:induction false} DecimalRoundTrip(n: nat)
    ensures DecimalValue(DecimalString(n)) == n
    decreases n
  {
    if n >= 10 {
      var s := DecimalString(n);
      assert s[..|s| - 1] == DecimalString(n / 10);
      DecimalRoundTrip(n / 10);
    }
  }

  /** Distinct numbers render as distinct numerals. */
  lemma DecimalStringInjective(m: nat, n: nat)
    requires DecimalString(m) == DecimalString(n)
    ensures m == n
  {
    DecimalRoundTrip(m);
    DecimalRoundTrip(n);
  }

  /** A numeral is recovered from any text it starts, as long as the text
      goes on with a character that is not a digit. */
  lemma {:induction false} DigitPrefixUnique(a: string, x: string, b: string, y: string)
    requires AllDigits(a) && AllDigits(b)
    requires x != [] && !IsDigit(x[0]) && y != [] && !IsDigit(y[0])
    requires a + x == b + y
    ensures a == b && x == y
  {
    var n := if |a| < |b| then |a| else |b|;
    assert (a + x)[n] == (b + y)[n];
    if |a| < |b| {
      assert false;
    } else if |b| < |a| {
      assert false;
    } else {
      assert a == (a + x)[..|a|];
      assert b == (b + y)[..|b|];
      assert x == (a + x)[|a|..];
      assert y == (b + y)[|b|..];
    }
  }
}

=== FILE: listing.dfy ===
/**
 `GET /api/assistants`: every stored session, in table order, with the
 names of the files in its vector store. A file's name falls back to its id;
 a store that cannot be listed shows no files; only a failure to read the
 table fails the whole request.
 */
module Listing {
  import opened Js
  import opened Provider
  import opened SessionStore

  const FetchFailed := "Failed to fetch assistants"

  /** A file object as `files.retrieve` returns it; `filename` is absent when
      the object has none (null or undefined). */
  datatype FileObject = FileObject(id: string, filename: Option<string>)

  /** One entry of a vector store's file listing, with the outcome of
      retrieving that file's object. */
  datatype ListedFile = ListedFile(id: string, retrieved: Outcome<FileObject>)

  /** The table read's outcome and, per row in table order, the outcome of
      listing that row's vector store (the first page, `.data`). */
  datatype ListingEnv = ListingEnv(tableRead: Outcome<()>, stores: seq<Outcome<seq<ListedFile>>>)

  datatype Entry = Entry(assistantId: string, vectorStoreId: string, threadId: string, name: string, files: seq<string>)

  datatype ListingBody = Entries(entries: seq<Entry>) | ErrorBody(error: string)

  datatype Listed = Listed(status: int, body: ListingBody, trace: seq<Call>)

  /** One outcome per row. */
  predicate WellFormed(t: Table, env: ListingEnv) {
    |env.stores| == |t|
  }

  /** The name shown for one listed file: `filename ?? fileObj.id` when the
      retrieve succeeds, the listed id when it throws. */
  function FileName(f: ListedFile): (name: string)
    ensures f.retrieved.Threw? ==> name == f.id
    ensures f.retrieved.Ok? && f.retrieved.value.filename.Some? ==> name == f.retrieved.value.filename.value
    ensures f.retrieved.Ok? && f.retrieved.value.filename.None? ==> name == f.retrieved.value.id
  {
    match f.retrieved
    case Threw(_) => f.id
    case Ok(obj) => obj.filename.OrElse(obj.id)
  }

  /** The inner `Promise.all`: one name per listed file, in listing order. */
  function FileNames(fs: seq<ListedFile>): (names: seq<string>)
    ensures |names| == |fs|
    ensures forall j :: 0 <= j < |fs| ==> names[j] == FileName(fs[j])
  {
    if fs == [] then [] else [FileName(fs[0])] + FileNames(fs[1..])
  }

  /** A row's files: its store's names, or none if the listing threw. */
  function RowFiles(store: Outcome<seq<ListedFile>>): seq<string> {
    match store
    case Threw(_) => []
    case Ok(fs) => FileNames(fs)
  }

  function ToEntry(r: Row, store: Outcome<seq<ListedFile>>): Entry {
    Entry(r.assistantId, r.vectorStoreId, r.threadId, r.name, RowFiles(store))
  }

  /** The outer `Promise.all`, as an in-order map over the rows. */
  function EntriesOf(t: Table, stores: seq<Outcome<seq<ListedFile>>>): (es: seq<Entry>)
    requires |stores| == |t|
    ensures |es| == |t|
    ensures forall i :: 0 <= i < |t| ==> es[i] == ToEntry(t[i], stores[i])
  {
    if t == [] then [] else [ToEntry(t[0], stores[0])] + EntriesOf(t[1..], stores[1..])
  }

  /** The calls one row makes: list its store, then retrieve each listed file. */
  function RowCalls(r: Row, store: Outcome<seq<ListedFile>>): (calls: seq<Call>)
    ensures |calls| == 1 + (if store.Ok? then |store.value| else 0)
    ensures calls[0] == ListVectorStoreFiles(r.vectorStoreId)
    ensures store.Ok? ==> forall j :: 0 <= j < |store.value| ==> calls[1 + j] == RetrieveFile(store.value[j].id)
  {
    [ListVectorStoreFiles(r.vectorStoreId)] +
    match store
    case Threw(_) => []
    case Ok(fs) => seq(|fs|, j requires 0 <= j < |fs| => RetrieveFile(fs[j].id))
  }

  function AllRowCalls(t: Table, stores: seq<Outcome<seq<ListedFile>>>): seq<Call>
    requires |stores| == |t|
  {
    if t == [] then [] else RowCalls(t[0], stores[0]) + AllRowCalls(t[1..], stores[1..])
  }

  /** Row `i`'s calls sit in the trace between those of the rows before it
      and those of the rows after it. */
  lemma {:induction false} AllRowCallsAt(t: Table, stores: seq<Outcome<seq<ListedFile>>>, i: nat)
    requires |stores| == |t| && i < |t|
    ensures AllRowCalls(t, stores)
            == AllRowCalls(t[..i], stores[..i]) + RowCalls(t[i], stores[i]) + AllRowCalls(t[i + 1..], stores[i + 1..])
  {
    if i == 0 {
      assert t[1..] == t[i + 1..] && stores[1..] == stores[i + 1..];
    } else {
      var t', s' := t[1..], stores[1..];
      AllRowCallsAt(t', s', i - 1);
      assert t'[i - 1] == t[i] && s'[i - 1] == stores[i];
      assert t'[i..] == t[i + 1..] && s'[i..] == stores[i + 1..];
      var before := AllRowCalls(t'[..i - 1], s'[..i - 1]);
      assert AllRowCalls(t[..i], stores[..i]) == RowCalls(t[0], stores[0]) + before by {
        assert t[..i][1..] == t'[..i - 1] && stores[..i][1..] == s'[..i - 1];
        assert t[..i][0] == t[0] && stores[..i][0] == stores[0];
      }
      Regroup(RowCalls(t[0], stores[0]), before, RowCalls(t[i], stores[i]), AllRowCalls(t[i + 1..], stores[i + 1..]));
    }
  }

  lemma Regroup<T>(a: seq<T>, b: seq<T>, c: seq<T>, d: seq<T>)
    ensures (a + b) + c + d == a + (b + c + d)
  {
  }

  /** `GET()`. */
  function Get(t: Table, env: ListingEnv): (l: Listed)
    requires WellFormed(t, env)
    ensures env.tableRead.Threw? ==> l == Listed(500, ErrorBody(FetchFailed), [])
    ensures env.tableRead.Ok? ==> l.status == 200 && l.body.Entries?
  {
    match env.tableRead
    case Threw(_) => Listed(500, ErrorBody(FetchFailed), [])
    case Ok(_) => Listed(200, Entries(EntriesOf(t, env.stores)), AllRowCalls(t, env.stores))
  }

  /** One entry per row, in row order, each copying the row's four columns
      unchanged; a row whose store listing threw shows no files, and otherwise
      one name per listed file, in listing order. */
  lemma {:induction false} EntriesFollowRows(t: Table, env: ListingEnv)
    requires WellFormed(t, env) && env.tableRead.Ok?
    ensures var es := Get(t, env).body.entries;
            && |es| == |t|
            && forall i :: 0 <= i < |t| ==>
                 && es[i].assistantId == t[i].assistantId
                 && es[i].vectorStoreId == t[i].vectorStoreId
                 && es[i].threadId == t[i].threadId
                 && es[i].name == t[i].name
                 && (env.stores[i].Threw? ==> es[i].files == [])
                 && (env.stores[i].Ok? ==>
                       && |es[i].files| == |env.stores[i].value|
                       && forall j :: 0 <= j < |env.stores[i].value| ==>
                            es[i].files[j] == FileName(env.stores[i].value[j]))
  {
  }

  /** A failure while listing one row's store affects only that row's entry:
      changing the outcome for row `k` leaves every other entry as it was. */
  lemma FailureIsolated(t: Table, env: ListingEnv, k: nat, other: Outcome<seq<ListedFile>>)
    requires WellFormed(t, env) && env.tableRead.Ok? && k < |t|
    ensures var env' := env.(stores := env.stores[k := other]);
            var es := Get(t, env).body.entries;
            var es' := Get(t, env').body.entries;
            && |es'| == |es|
            && forall i :: 0 <= i < |t| && i != k ==> es'[i] == es[i]
  {
  }

  /** The vector stores a trace lists, in call order. */
  function ListedStores(calls: seq<Call>): seq<string> {
    if calls == [] then []
    else (if calls[0].ListVectorStoreFiles? then [calls[0].storeId] else []) + ListedStores(calls[1..])
  }

  lemma {:induction false} ListedStoresAppend(a: seq<Call>, b: seq<Call>)
    ensures ListedStores(a + b) == ListedStores(a) + ListedStores(b)
  {
    if a != [] {
      assert (a + b)[1..] == a[1..] + b;
      ListedStoresAppend(a[1..], b);
    } else {
      assert a + b == b;
    }
  }

  lemma {:induction false} ListedStoresRetrieves(fs: seq<ListedFile>)
    ensures ListedStores(seq(|fs|, j requires 0 <= j < |fs| => RetrieveFile(fs[j].id))) == []
  {
    if fs != [] {
      var calls := seq(|fs|, j requires 0 <= j < |fs| => RetrieveFile(fs[j].id));
      assert calls[1..] == seq(|fs[1..]|, j requires 0 <= j < |fs[1..]| => RetrieveFile(fs[1..][j].id));
      ListedStoresRetrieves(fs[1..]);
    }
  }

  /** Each row's vector store is listed exactly once, in row order, and it is
      the store the row names. */
  lemma {:induction false} StoresListedInRowOrder(t: Table, stores: seq<Outcome<seq<ListedFile>>>)
    requires |stores| == |t|
    ensures var ids := ListedStores(AllRowCalls(t, stores));
            |ids| == |t| && forall i :: 0 <= i < |t| ==> ids[i] == t[i].vectorStoreId
  {
    if t != [] {
      var row := RowCalls(t[0], stores[0]);
      ListedStoresAppend(row, AllRowCalls(t[1..], stores[1..]));
      if stores[0].Ok? {
        var fs := stores[0].value;
        ListedStoresAppend([ListVectorStoreFiles(t[0].vectorStoreId)], seq(|fs|, j requires 0 <= j < |fs| => RetrieveFile(fs[j].id)));
        ListedStoresRetrieves(fs);
      }
      assert ListedStores(row) == [t[0].vectorStoreId];
      StoresListedInRowOrder(t[1..], stores[1..]);
    }
  }
}

=== FILE: mermaid_detect.dfy ===
/**
 `looksLikeMermaid` in `ChatMessage.tsx`: a cheap test for diagram source.
 After dropping leading whitespace, the text must start with one of twelve
 diagram keywords. The match is by prefix and case-sensitive, so "pieces"
 passes and "Graph" does not.
 */
module MermaidDetect {
  import opened Js

  /** The keywords, in the order the source lists them. */
  const Keywords: seq<string> := [
    "graph", "flowchart", "sequenceDiagram", "classDiagram", "stateDiagram",
    "erDiagram", "gantt", "journey", "pie", "gitGraph", "xychart", "xychart-beta"
  ]

  /** `keywords.some((k) => s.startsWith(k))`: the keywords are tried in
      list order until one is a prefix of `s`. */
  function AnyPrefix(ks: seq<string>, s: string): bool {
    if ks == [] then false else ks[0] <= s || AnyPrefix(ks[1..], s)
  }

  /** The scan succeeds exactly when some keyword of the list is a prefix. */
  lemma {:induction false} AnyPrefixIff(ks: seq<string>, s: string)
    ensures AnyPrefix(ks, s) <==> exists i :: 0 <= i < |ks| && ks[i] <= s
  {
    if ks != [] {
      AnyPrefixIff(ks[1..], s);
      if AnyPrefix(ks[1..], s) {
        var j :| 0 <= j < |ks[1..]| && ks[1..][j] <= s;
        assert ks[j + 1] <= s;
      }
      if exists i :: 0 <= i < |ks| && ks[i] <= s {
        var i :| 0 <= i < |ks| && ks[i] <= s;
        if i > 0 {
          assert ks[1..][i - 1] <= s;
        }
      }
    }
  }

  /** `looksLikeMermaid(src)`. A positive verdict needs a lower-case letter
      as the first character after the leading whitespace. */
  predicate LooksLikeMermaid(src: string): (b: bool)
    ensures b ==> TrimStart(src) != [] && 'a' <= TrimStart(src)[0] <= 'z'
  {
    AnyPrefixIff(Keywords, TrimStart(src));
    KeywordShapes();
    AnyPrefix(Keywords, TrimStart(src))
  }

  /** The verdict is positive exactly when, after its leading whitespace, the
      text starts with one of the keywords. */
  lemma LooksLikeMermaidIff(src: string)
    ensures LooksLikeMermaid(src) <==> exists i :: 0 <= i < |Keywords| && Keywords[i] <= TrimStart(src)
  {
    AnyPrefixIff(Keywords, TrimStart(src));
  }

  /** The verdict depends only on the text after its leading whitespace. */
  lemma DependsOnlyOnTrimmed(src: string)
    ensures LooksLikeMermaid(src) == LooksLikeMermaid(TrimStart(src))
  {
    TrimStartIdempotent(src);
  }

  /** Prefixing any amount of whitespace changes nothing. */
  lemma WhitespacePrefixIgnored(w: string, src: string)
    requires forall i :: 0 <= i < |w| ==> IsWhitespace(w[i])
    ensures LooksLikeMermaid(w + src) == LooksLikeMermaid(src)
  {
    TrimStartSkipsWhitespace(w, src);
  }

  /** Empty or all-whitespace text is never taken for a diagram. */
  lemma BlankIsNotMermaid(src: string)
    requires forall i :: 0 <= i < |src| ==> IsWhitespace(src[i])
    ensures !LooksLikeMermaid(src)
  {
    TrimStartAllWhitespace(src);
    NothingPrefixesEmpty();
  }

  /** Every keyword is nonempty, so none is a prefix of the empty text. */
  lemma NothingPrefixesEmpty()
    ensures !AnyPrefix(Keywords, [])
  {
    AnyPrefixIff(Keywords, []);
    KeywordShapes();
  }

  /** Every keyword has at least three characters and starts with a
      lower-case letter. */
  lemma KeywordShapes()
    ensures forall i :: 0 <= i < |Keywords| ==> |Keywords[i]| >= 3 && 'a' <= Keywords[i][0] <= 'z'
  {
    forall i | 0 <= i < |Keywords|
      ensures |Keywords[i]| >= 3 && 'a' <= Keywords[i][0] <= 'z'
    {
      if i == 0 {
        assert Keywords[0] == "graph";
      } else if i == 1 {
        assert Keywords[1] == "flowchart";
      } else if i == 2 {
        assert Keywords[2] == "sequenceDiagram";
      } else if i == 3 {
        assert Keywords[3] == "classDiagram";
      } else if i == 4 {
        assert Keywords[4] == "stateDiagram";
      } else if i == 5 {
        assert Keywords[5] == "erDiagram";
      } else if i == 6 {
        assert Keywords[6] == "gantt";
      } else if i == 7 {
        assert Keywords[7] == "journey";
      } else if i == 8 {
        assert Keywords[8] == "pie";
      } else if i == 9 {
        assert Keywords[9] == "gitGraph";
      } else if i == 10 {
        assert Keywords[10] == "xychart";
      } else {
        assert Keywords[11] == "xychart-beta";
      }
    }
  }

  /** Appending text keeps a positive verdict positive. */
  lemma AppendKeepsMermaid(src: string, more: string)
    requires LooksLikeMermaid(src)
    ensures LooksLikeMermaid(src + more)
  {
    var t := TrimStart(src);
    if t == [] {
      NothingPrefixesEmpty();
      assert false;
    }
    TrimStartAppend(src, more);
    AnyPrefixExtends(Keywords, t, more);
  }

  lemma {:induction false} AnyPrefixExtends(ks: seq<string>, s: string, more: string)
    requires AnyPrefix(ks, s)
    ensures AnyPrefix(ks, s + more)
  {
    if !(ks[0] <= s) {
      AnyPrefixExtends(ks[1..], s, more);
    }
  }

  /** "xychart" is a prefix of "xychart-beta", so the last keyword never
      decides anything: the first eleven give the same verdict on every input. */
  lemma XychartBetaRedundant(src: string)
    ensures LooksLikeMermaid(src) == AnyPrefix(Keywords[..11], TrimStart(src))
  {
    assert Keywords[10] <= Keywords[11];
    LastShadowed(Keywords, TrimStart(src));
  }

  /** A last keyword that extends the one before it matches only where that
      one already does. */
  lemma LastShadowed(ks: seq<string>, s: string)
    requires |ks| >= 2 && ks[|ks| - 2] <= ks[|ks| - 1]
    ensures AnyPrefix(ks, s) == AnyPrefix(ks[..|ks| - 1], s)
  {
    var init := ks[..|ks| - 1];
    AnyPrefixIff(ks, s);
    AnyPrefixIff(init, s);
    if AnyPrefix(ks, s) {
      var i :| 0 <= i < |ks| && ks[i] <= s;
      var j := if i == |ks| - 1 then i - 1 else i;
      assert init[j] == ks[j] <= s;
    }
    if AnyPrefix(init, s) {
      var i :| 0 <= i < |init| && init[i] <= s;
      assert ks[i] <= s;
    }
  }

  /** Matching is by prefix: "pieces" starts with "pie". */
  lemma PrefixExample()
    ensures LooksLikeMermaid("pieces")
  {
    var s := "pieces";
    assert !IsWhitespace(s[0]);
    assert TrimStart(s) == s;
    assert Keywords[8] == "pie";
    assert "pie" <= s;
    AnyPrefixIff(Keywords, s);
  }

  /** Matching is case-sensitive: no keyword starts with an upper-case letter. */
  lemma CaseExample()
    ensures !LooksLikeMermaid("Graph TD")
  {
    var s := "Graph TD";
    assert !IsWhitespace(s[0]);
    assert TrimStart(s) == s;
    AnyPrefixIff(Keywords, s);
    KeywordShapes();
  }
}

=== FILE: provider.dfy ===
/**
 The hosted AI provider, seen from this application: every SDK call either
 returns a value or throws. The model never computes what the provider would
 answer; each entry point receives the outcome of each call it may attempt,
 and reports the calls it did attempt, in order, as a trace.
 */
module Provider {
  import opened Js
  import opened Forms

  /** What one provider (or database) call did: returned a value or threw. */
  datatype Outcome<+T> = Ok(value: T) | Threw(error: Thrown)

  /** The tools an assistant can be given; the code only ever uses file search. */
  datatype Tool = FileSearch

  /** One attempted call into the provider SDK, with the arguments that matter. */
  datatype Call =
    | UploadFile(file: FormValue)
    | CreateVectorStore(fileIds: seq<string>)
    | RetrieveVectorStore(storeId: string)
    | CreateAssistant(name: string, model: string, tools: seq<Tool>, vectorStoreIds: seq<string>)
    | CreateThread
    | CreateMessage(thread: Value, role: string, content: Value)
    | CreateAndPollRun(thread: Value, assistant: Value)
    | ListMessages(thread: Value)
    | ListVectorStoreFiles(storeId: string)
    | RetrieveFile(fileId: string)
    | DeleteFile(fileId: string)
    | DeleteVectorStore(storeId: string)
    | DeleteAssistant(assistantId: string)
    | DeleteThread(threadId: string)
  {
    /** Calls that remove a provider resource. */
    predicate IsDelete() {
      DeleteFile? || DeleteVectorStore? || DeleteAssistant? || DeleteThread?
    }
  }

  /** The status word the provider uses for a finished vector store and for
      a run that ended normally. */
  const Completed := "completed"

  /** The `status` field of a server action's result. */
  datatype Status = Success | Error
}

=== FILE: session_store.dfy ===
/**
 The one persisted table, `assistant`: a chat session links a provider
 assistant to its vector store, its thread and a display name. The
 assistant id is the primary key and every column is NOT NULL.

 The table is a sequence of rows in storage order, and a plain `SELECT` is
 taken to return them in that order (SQL itself promises no order without
 `ORDER BY`); `AsMap` is the keyed view the lookups and deletes use.
 */
module SessionStore {
  import opened Js

  /** One row. The four columns are declared NOT NULL, so a stored row has a
      string in each; `Candidate` below is what an INSERT offers before the
      constraints are checked. */
  datatype Row = Row(assistantId: string, vectorStoreId: string, threadId: string, name: string)

  type Table = seq<Row>

  /** The primary-key constraint: no two rows share an assistant id. */
  predicate ValidTable(t: Table) {
    forall i, j :: 0 <= i < j < |t| ==> t[i].assistantId != t[j].assistantId
  }

  function Keys(t: Table): set<string> {
    set r | r in t :: r.assistantId
  }

  /** `SELECT … WHERE assistant_id = id` followed by `.get()`: the first row
      with that key, or nothing. */
  function Lookup(t: Table, id: string): (r: Option<Row>)
    ensures r.Some? <==> id in Keys(t)
    ensures r.Some? ==> r.value in t && r.value.assistantId == id
  {
    if t == [] then None
    else if t[0].assistantId == id then Some(t[0])
    else
      var r := Lookup(t[1..], id);
      assert Keys(t) == {t[0].assistantId} + Keys(t[1..]) by {
        assert forall r :: r in t <==> r == t[0] || r in t[1..];
      }
      r
  }

  /** `DELETE … WHERE assistant_id = id`: every row with that key goes, the
      others stay. */
  function DeleteWhere(t: Table, id: string): (t': Table)
    ensures forall r :: r in t' <==> r in t && r.assistantId != id
    ensures |t'| <= |t|
  {
    if t == [] then []
    else
      var rest := DeleteWhere(t[1..], id);
      assert forall r :: r in t <==> r == t[0] || r in t[1..];
      if t[0].assistantId == id then rest else [t[0]] + rest
  }

  /** After the delete the key is gone and no other key is. */
  lemma DeleteWhereKeys(t: Table, id: string)
    ensures Keys(DeleteWhere(t, id)) == Keys(t) - {id}
  {
    var t' := DeleteWhere(t, id);
    forall k | k in Keys(t) - {id}
      ensures k in Keys(t')
    {
      var r :| r in t && r.assistantId == k;
      assert r in t';
    }
  }

  /** Deleting a key that is not there changes nothing. */
  lemma {:induction false} DeleteWhereAbsent(t: Table, id: string)
    requires id !in Keys(t)
    ensures DeleteWhere(t, id) == t
  {
    if t != [] {
      assert t[0] in t;
      assert Keys(t[1..]) <= Keys(t) by {
        assert forall r :: r in t[1..] ==> r in t;
      }
      DeleteWhereAbsent(t[1..], id);
      assert t == [t[0]] + t[1..];
    }
  }

  /** A table's tail keeps the primary key, and the head's key is not in it. */
  lemma TailValid(t: Table)
    requires ValidTable(t) && t != []
    ensures ValidTable(t[1..])
    ensures t[0].assistantId !in Keys(t[1..])
  {
    var tail := t[1..];
    forall i, j | 0 <= i < j < |tail|
      ensures tail[i].assistantId != tail[j].assistantId
    {
      assert tail[i] == t[i + 1] && tail[j] == t[j + 1];
    }
    forall r | r in tail
      ensures r.assistantId != t[0].assistantId
    {
      var j :| 0 <= j < |tail| && tail[j] == r;
      assert t[j + 1] == r;
    }
  }

  /** In a table that keeps its primary key, deleting the row at position `k`
      leaves every other row where it was, in the same order. */
  lemma {:induction false} DeleteWhereSplices(t: Table, id: string, k: nat)
    requires ValidTable(t)
    requires k < |t| && t[k].assistantId == id
    ensures DeleteWhere(t, id) == t[..k] + t[k + 1..]
  {
    TailValid(t);
    if k == 0 {
      DeleteWhereAbsent(t[1..], id);
      assert t[..0] + t[1..] == t[1..];
    } else {
      assert t[1..][k - 1] == t[k];
      DeleteWhereSplices(t[1..], id, k - 1);
      SpliceCons(t, k);
    }
  }

  lemma SpliceCons(t: Table, k: nat)
    requires 0 < k < |t|
    ensures [t[0]] + (t[1..][..k - 1] + t[1..][k..]) == t[..k] + t[k + 1..]
  {
    assert t[1..][..k - 1] == t[1..k];
    assert t[1..][k..] == t[k + 1..];
    assert t[..k] == [t[0]] + t[1..k];
  }

  /** Removing one row keeps the keys distinct. */
  lemma SpliceValid(t: Table, k: nat)
    requires ValidTable(t) && k < |t|
    ensures ValidTable(t[..k] + t[k + 1..])
  {
    var t' := t[..k] + t[k + 1..];
    forall i, j | 0 <= i < j < |t'|
      ensures t'[i].assistantId != t'[j].assistantId
    {
      var i' := if i < k then i else i + 1;
      var j' := if j < k then j else j + 1;
      assert t'[i] == t[i'] && t'[j] == t[j'];
    }
  }

  /** The primary key survives a delete. */
  lemma DeleteWhereValid(t: Table, id: string)
    requires ValidTable(t)
    ensures ValidTable(DeleteWhere(t, id))
  {
    if id in Keys(t) {
      var r :| r in t && r.assistantId == id;
      var k :| 0 <= k < |t| && t[k] == r;
      DeleteWhereSplices(t, id, k);
      SpliceValid(t, k);
    } else {
      DeleteWhereAbsent(t, id);
    }
  }

  /** The keyed view of the table; when a key repeats, the first row wins,
      as `.get()` would return it. */
  function AsMap(t: Table): (m: map<string, Row>)
    ensures m.Keys == Keys(t)
    ensures forall k :: k in m ==> m[k] in t && m[k].assistantId == k
  {
    if t == [] then map[]
    else
      var m := AsMap(t[1..])[t[0].assistantId := t[0]];
      assert forall r :: r in t <==> r == t[0] || r in t[1..];
      m
  }

  /** The linear lookup agrees with the keyed view. */
  lemma {:induction false} LookupIsMapGet(t: Table, id: string)
    ensures Lookup(t, id) == if id in AsMap(t) then Some(AsMap(t)[id]) else None
  {
    if t != [] && t[0].assistantId != id {
      LookupIsMapGet(t[1..], id);
    }
  }

  /** Seen as a map, the delete removes exactly that key and keeps every other
      key bound to the same row. */
  lemma {:induction false} DeleteWhereIsMapRemove(t: Table, id: string)
    ensures AsMap(DeleteWhere(t, id)) == AsMap(t) - {id}
  {
    if t != [] {
      var tail := DeleteWhere(t[1..], id);
      DeleteWhereIsMapRemove(t[1..], id);
      if t[0].assistantId == id {
        MapUpdateRemove(AsMap(t[1..]), id, t[0]);
      } else {
        assert DeleteWhere(t, id) == [t[0]] + tail;
        assert ([t[0]] + tail)[1..] == tail;
        MapRemoveUpdate(AsMap(t[1..]), id, t[0].assistantId, t[0]);
      }
    }
  }

  lemma MapUpdateRemove(m: map<string, Row>, k: string, v: Row)
    ensures m[k := v] - {k} == m - {k}
  {
  }

  lemma MapRemoveUpdate(m: map<string, Row>, k: string, k': string, v: Row)
    requires k != k'
    ensures (m - {k})[k' := v] == m[k' := v] - {k}
  {
  }

  /** An INSERT as offered, before the column constraints are checked; a
      missing value is SQL NULL. */
  datatype Candidate = Candidate(
    assistantId: Option<string>,
    vectorStoreId: Option<string>,
    threadId: Option<string>,
    name: Option<string>)

  datatype Column = AssistantIdColumn | VectorStoreIdColumn | ThreadIdColumn | NameColumn

  datatype Violation = NotNull(column: Column) | PrimaryKeyTaken

  datatype InsertResult = Inserted(table: Table) | Rejected(violation: Violation)

  /** An INSERT under the table's constraints: a NULL in any column, or an
      assistant id already present, rejects the row and leaves the table as it
      was; otherwise the row is appended. */
  function Insert(t: Table, c: Candidate): (r: InsertResult)
    ensures r.Inserted? <==>
      && c.assistantId.Some? && c.vectorStoreId.Some? && c.threadId.Some? && c.name.Some?
      && c.assistantId.value !in Keys(t)
    ensures r.Inserted? ==>
      r.table == t + [Row(c.assistantId.value, c.vectorStoreId.value, c.threadId.value, c.name.value)]
    ensures r.Rejected? && r.violation.NotNull? ==>
      match r.violation.column
      case AssistantIdColumn => c.assistantId.None?
      case VectorStoreIdColumn => c.vectorStoreId.None?
      case ThreadIdColumn => c.threadId.None?
      case NameColumn => c.name.None?
    ensures r.Rejected? && r.violation.PrimaryKeyTaken? ==> c.assistantId.Some? && c.assistantId.value in Keys(t)
  {
    if c.assistantId.None? then Rejected(NotNull(AssistantIdColumn))
    else if c.vectorStoreId.None? then Rejected(NotNull(VectorStoreIdColumn))
    else if c.threadId.None? then Rejected(NotNull(ThreadIdColumn))
    else if c.name.None? then Rejected(NotNull(NameColumn))
    else if c.assistantId.value in Keys(t) then Rejected(PrimaryKeyTaken)
    else Inserted(t + [Row(c.assistantId.value, c.vectorStoreId.value, c.threadId.value, c.name.value)])
  }

  /** The primary key survives an insert. */
  lemma InsertValid(t: Table, c: Candidate)
    requires ValidTable(t)
    ensures Insert(t, c).Inserted? ==> ValidTable(Insert(t, c).table)
  {
    var r := Insert(t, c);
    if r.Inserted? {
      var t' := r.table;
      forall i, j | 0 <= i < j < |t'|
        ensures t'[i].assistantId != t'[j].assistantId
      {
        if j == |t| {
          assert t'[i] == t[i];
          assert t[i] in t;
        }
      }
    }
  }
}

=== FILE: upload_action.dfy ===
/**
 `uploadFiles` in `uploadAction.tsx`: provisions a chat from a form's
 `files` entries. Strictly in order it uploads every file, creates a vector
 store holding exactly those files, polls the store until it reports
 "completed", creates a file-search assistant bound to that store, and
 creates a thread. Any throw lands in one catch that reports
 "Upload failed: …".

 The code neither writes a session row nor deletes anything it created
 before a failure, and the model does not either: the entry point takes no
 table, and its trace holds no delete call.
 */
module UploadAction {
  import opened Js
  import opened Forms
  import opened Provider

  const FilesKey := "files"
  const CreatedMessage := "Assistant created successfully!"
  const FailurePrefix := "Upload failed: "
  const AssistantName := "AI Document Chat"
  const AssistantModel := "gpt-4o"

  /** The outcome of every provider call the action can make: one upload per
      `files` value (the new file id, or a throw), the store creation (its id),
      the store retrieves made by the poll timer in the order they answered
      (a status string, or a throw), the assistant creation and the thread
      creation. */
  datatype UploadEnv = UploadEnv(
    uploads: seq<Outcome<string>>,
    createStore: Outcome<string>,
    retrieves: seq<Outcome<string>>,
    createAssistant: Outcome<string>,
    createThread: Outcome<string>)

  datatype UploadResult = UploadResult(status: Status, message: string, assistantId: Option<string>, threadId: Option<string>)

  /** The action returned a result, or, after every observed poll, it is still
      waiting for the store to complete (the code has no timeout). */
  datatype Provisioning = Returned(result: UploadResult, trace: seq<Call>) | StillPolling(trace: seq<Call>)

  function Failed(e: Thrown): UploadResult {
    UploadResult(Error, FailurePrefix + ErrorText(e), None, None)
  }

  /** The first throw among several outcomes, if any. */
  function FirstThrow<T>(os: seq<Outcome<T>>): (r: Option<nat>)
    ensures r.None? <==> forall i :: 0 <= i < |os| ==> os[i].Ok?
    ensures r.Some? ==> r.value < |os| && os[r.value].Threw?
    ensures r.Some? ==> forall i :: 0 <= i < r.value ==> os[i].Ok?
  {
    if os == [] then None
    else if os[0].Threw? then Some(0)
    else
      match FirstThrow(os[1..])
      case None => None
      case Some(k) => Some(k + 1)
  }

  /** `Promise.all` over fulfilled uploads: their ids, in input order. */
  function UploadedIds(os: seq<Outcome<string>>): (ids: seq<string>)
    requires forall i :: 0 <= i < |os| ==> os[i].Ok?
    ensures |ids| == |os|
    ensures forall i :: 0 <= i < |os| ==> ids[i] == os[i].value
  {
    seq(|os|, i requires 0 <= i < |os| && os[i].Ok? => os[i].value)
  }

  /** How the poll ended: ready after `polls` retrieves, failed on the
      `polls`-th retrieve, or not ended within the observed retrieves. */
  datatype Wait = Ready(polls: nat) | WaitFailed(polls: nat, error: Thrown) | Waiting

  /** Every retrieve answered, and none reported "completed". */
  predicate StillPending(rs: seq<Outcome<string>>) {
    forall i :: 0 <= i < |rs| ==> rs[i].Ok? && rs[i].value != Completed
  }

  /** The poll timer's promise: it resolves on the first retrieve reporting
      "completed", rejects on the first retrieve that throws, and otherwise
      keeps ticking. */
  function AwaitCompleted(rs: seq<Outcome<string>>): (w: Wait)
    ensures w.Ready? ==> 0 < w.polls <= |rs| && rs[w.polls - 1] == Ok(Completed) && StillPending(rs[..w.polls - 1])
    ensures w.WaitFailed? ==> 0 < w.polls <= |rs| && rs[w.polls - 1] == Threw(w.error) && StillPending(rs[..w.polls - 1])
    ensures w.Waiting? <==> StillPending(rs)
  {
    if rs == [] then Waiting
    else if rs[0].Threw? then WaitFailed(1, rs[0].error)
    else if rs[0].value == Completed then Ready(1)
    else
      var w := AwaitCompleted(rs[1..]);
      assert forall n :: 0 <= n <= |rs[1..]| ==> rs[..n + 1] == [rs[0]] + rs[1..][..n];
      match w
      case Waiting => Waiting
      case Ready(n) => Ready(n + 1)
      case WaitFailed(n, e) => WaitFailed(n + 1, e)
  }

  /** `n` retrieves of the same vector store. */
  function Polls(storeId: string, n: nat): (calls: seq<Call>)
    ensures |calls| == n && forall i :: 0 <= i < n ==> calls[i] == RetrieveVectorStore(storeId)
  {
    seq(n, i => RetrieveVectorStore(storeId))
  }

  function UploadCalls(files: seq<FormValue>): (calls: seq<Call>)
    ensures |calls| == |files| && forall i :: 0 <= i < |files| ==> calls[i] == UploadFile(files[i])
  {
    seq(|files|, i requires 0 <= i < |files| => UploadFile(files[i]))
  }

  /** One upload outcome per `files` value. */
  predicate WellFormed(arg: ActionArg, env: UploadEnv) {
    arg.Form? ==> |env.uploads| == |GetAll(arg.entries, FilesKey)|
  }

  /** The steps after the vector store exists: wait, then create the assistant
      and the thread. `before` is the trace so far. */
  function AfterStore(storeId: string, env: UploadEnv, before: seq<Call>): (p: Provisioning)
    ensures (forall c :: c in before ==> !c.IsDelete()) ==> forall c :: c in p.trace ==> !c.IsDelete()
  {
    match AwaitCompleted(env.retrieves)
    case Waiting => StillPolling(before + Polls(storeId, |env.retrieves|))
    case WaitFailed(n, e) => Returned(Failed(e), before + Polls(storeId, n))
    case Ready(n) =>
      var t := before + Polls(storeId, n) + [CreateAssistant(AssistantName, AssistantModel, [FileSearch], [storeId])];
      match env.createAssistant
      case Threw(e) => Returned(Failed(e), t)
      case Ok(assistantId) =>
        match env.createThread
        case Threw(e) => Returned(Failed(e), t + [CreateThread])
        case Ok(threadId) => Returned(UploadResult(Success, CreatedMessage, Some(assistantId), Some(threadId)), t + [CreateThread])
  }

  /** `uploadFiles(formData)`. */
  function UploadFiles(arg: ActionArg, env: UploadEnv): (p: Provisioning)
    requires WellFormed(arg, env)
    ensures arg.Form? && GetAll(arg.entries, FilesKey) == [] ==>
      p == Returned(UploadResult(Error, NoFilesMessage, None, None), [])
    ensures arg.NotAForm? ==> p == Returned(Failed(arg.fault), [])
    ensures p.Returned? && p.result.status == Error ==> p.result.assistantId.None? && p.result.threadId.None?
    ensures p.Returned? && p.result.status == Success ==>
      && p.result.message == CreatedMessage
      && env.createAssistant.Ok? && p.result.assistantId == Some(env.createAssistant.value)
      && env.createThread.Ok? && p.result.threadId == Some(env.createThread.value)
    ensures forall c :: c in p.trace ==> !c.IsDelete()
  {
    match arg
    case NotAForm(e) => Returned(Failed(e), [])
    case Form(entries) =>
      var files := GetAll(entries, FilesKey);
      if |files| == 0 then Returned(UploadResult(Error, NoFilesMessage, None, None), [])
      else
        var uploads := UploadCalls(files);
        match FirstThrow(env.uploads)
        case Some(k) => Returned(Failed(env.uploads[k].error), uploads)
        case None =>
          var before := uploads + [CreateVectorStore(UploadedIds(env.uploads))];
          match env.createStore
          case Threw(e) => Returned(Failed(e), before)
          case Ok(storeId) => AfterStore(storeId, env, before)
  }

  /** `e` was thrown by something the action touched: the argument's own
      `getAll`, one of the uploads, the store creation, one of the retrieves,
      the assistant creation or the thread creation. */
  predicate ThrownBy(e: Thrown, arg: ActionArg, env: UploadEnv) {
    || (arg.NotAForm? && e == arg.fault)
    || Threw(e) in env.uploads
    || env.createStore == Threw(e)
    || Threw(e) in env.retrieves
    || env.createAssistant == Threw(e)
    || env.createThread == Threw(e)
  }

  /** Every error result either reports the missing files or is the
      "Upload failed: " report of an error that one of the action's own steps
      threw. */
  lemma ErrorMessages(arg: ActionArg, env: UploadEnv)
    requires WellFormed(arg, env)
    ensures var p := UploadFiles(arg, env);
            p.Returned? && p.result.status == Error ==>
              || p.result == UploadResult(Error, NoFilesMessage, None, None)
              || exists e :: ThrownBy(e, arg, env) && p.result == Failed(e)
  {
    var p := UploadFiles(arg, env);
    if arg.NotAForm? {
      assert ThrownBy(arg.fault, arg, env) && p.result == Failed(arg.fault);
    } else if GetAll(arg.entries, FilesKey) != [] {
      FailureCause(arg, env);
      match FirstThrow(env.uploads)
      case Some(k) =>
        var e := env.uploads[k].error;
        assert env.uploads[k] in env.uploads;
        assert ThrownBy(e, arg, env) && p.result == Failed(e);
      case None =>
        match env.createStore
        case Threw(e) =>
          assert ThrownBy(e, arg, env) && p.result == Failed(e);
        case Ok(_) =>
          match AwaitCompleted(env.retrieves)
          case Waiting =>
          case WaitFailed(n, e) =>
            assert env.retrieves[n - 1] in env.retrieves;
            assert ThrownBy(e, arg, env) && p.result == Failed(e);
          case Ready(_) =>
            match env.createAssistant
            case Threw(e) =>
              assert ThrownBy(e, arg, env) && p.result == Failed(e);
            case Ok(_) =>
              match env.createThread
              case Threw(e) =>
                assert ThrownBy(e, arg, env) && p.result == Failed(e);
              case Ok(_) =>
    }
  }

  /** The failure reported is the error of the step that threw first: the
      first throwing upload, else the store creation, else the first retrieve
      that threw before any "completed", else the assistant creation, else the
      thread creation. */
  lemma FailureCause(arg: ActionArg, env: UploadEnv)
    requires WellFormed(arg, env) && arg.Form? && GetAll(arg.entries, FilesKey) != []
    ensures FirstThrow(env.uploads).Some? ==>
              UploadFiles(arg, env).Returned?
              && UploadFiles(arg, env).result == Failed(env.uploads[FirstThrow(env.uploads).value].error)
    ensures FirstThrow(env.uploads).None? && env.createStore.Threw? ==>
              UploadFiles(arg, env).Returned?
              && UploadFiles(arg, env).result == Failed(env.createStore.error)
    ensures FirstThrow(env.uploads).None? && env.createStore.Ok? && AwaitCompleted(env.retrieves).WaitFailed? ==>
              UploadFiles(arg, env).Returned?
              && UploadFiles(arg, env).result == Failed(AwaitCompleted(env.retrieves).error)
    ensures FirstThrow(env.uploads).None? && env.createStore.Ok? && AwaitCompleted(env.retrieves).Ready?
            && env.createAssistant.Threw? ==>
              UploadFiles(arg, env).Returned?
              && UploadFiles(arg, env).result == Failed(env.createAssistant.error)
    ensures FirstThrow(env.uploads).None? && env.createStore.Ok? && AwaitCompleted(env.retrieves).Ready?
            && env.createAssistant.Ok? && env.createThread.Threw? ==>
              UploadFiles(arg, env).Returned?
              && UploadFiles(arg, env).result == Failed(env.createThread.error)
  {
  }

  /** The action succeeds exactly when there are files and every provider
      step succeeds: all uploads, the store creation, a poll reaching
      "completed" before any throw, the assistant and the thread. */
  lemma SuccessIff(arg: ActionArg, env: UploadEnv)
    requires WellFormed(arg, env)
    ensures var p := UploadFiles(arg, env);
            (p.Returned? && p.result.status == Success) <==>
              && arg.Form? && GetAll(arg.entries, FilesKey) != []
              && (forall i :: 0 <= i < |env.uploads| ==> env.uploads[i].Ok?)
              && env.createStore.Ok?
              && AwaitCompleted(env.retrieves).Ready?
              && env.createAssistant.Ok? && env.createThread.Ok?
  {
  }

  /** Each `files` value is uploaded exactly once, in form order, before
      anything else; when the store is created, it is created with exactly the
      returned file ids, in the same order. */
  lemma {:induction false} UploadsThenStore(arg: ActionArg, env: UploadEnv)
    requires WellFormed(arg, env) && arg.Form?
    requires GetAll(arg.entries, FilesKey) != []
    ensures var files := GetAll(arg.entries, FilesKey);
            var tr := UploadFiles(arg, env).trace;
            && |tr| >= |files|
            && (forall i :: 0 <= i < |files| ==> tr[i] == UploadFile(files[i]))
            && (|tr| > |files| ==>
                  && (forall i :: 0 <= i < |env.uploads| ==> env.uploads[i].Ok?)
                  && tr[|files|].CreateVectorStore?
                  && |tr[|files|].fileIds| == |files|
                  && forall i :: 0 <= i < |files| ==> tr[|files|].fileIds[i] == env.uploads[i].value)
            && forall j :: |files| <= j < |tr| ==> !tr[j].UploadFile?
  {
    var files := GetAll(arg.entries, FilesKey);
    var uploads := UploadCalls(files);
    var tr := UploadFiles(arg, env).trace;
    match FirstThrow(env.uploads)
    case Some(k) =>
      assert tr == uploads;
    case None =>
      var before := uploads + [CreateVectorStore(UploadedIds(env.uploads))];
      if env.createStore.Ok? {
        AfterStoreExtends(env.createStore.value, env, before);
      }
      assert tr[..|before|] == before;
      assert forall i :: 0 <= i < |files| ==> tr[i] == before[i] == uploads[i];
      assert tr[|files|] == before[|files|];
  }

  /** The steps after the store only append to the trace so far. */
  lemma AfterStoreExtends(storeId: string, env: UploadEnv, before: seq<Call>)
    ensures |AfterStore(storeId, env, before).trace| >= |before|
    ensures AfterStore(storeId, env, before).trace[..|before|] == before
    ensures var tr := AfterStore(storeId, env, before).trace;
            forall j :: |before| <= j < |tr| ==> !tr[j].UploadFile?
  {
  }

  /** The assistant is only created after a retrieve reported "completed",
      with every earlier retrieve answering some other status; it gets the
      file-search tool and exactly one vector store, the one just created. */
  lemma AssistantAfterCompletedStore(arg: ActionArg, env: UploadEnv)
    requires WellFormed(arg, env)
    ensures var tr := UploadFiles(arg, env).trace;
            forall c :: c in tr && c.CreateAssistant? ==>
              && env.createStore.Ok?
              && c == CreateAssistant(AssistantName, AssistantModel, [FileSearch], [env.createStore.value])
              && AwaitCompleted(env.retrieves).Ready?
  {
    if arg.Form? && GetAll(arg.entries, FilesKey) != [] && FirstThrow(env.uploads).None? {
      var before := UploadCalls(GetAll(arg.entries, FilesKey)) + [CreateVectorStore(UploadedIds(env.uploads))];
      assert forall c :: c in before ==> !c.CreateAssistant?;
      if env.createStore.Ok? {
        AfterStoreAssistant(env.createStore.value, env, before);
      }
    }
  }

  /** After the store exists, the only assistant creation follows a
      "completed" retrieve and is bound to that store. */
  lemma AfterStoreAssistant(storeId: string, env: UploadEnv, before: seq<Call>)
    requires forall c :: c in before ==> !c.CreateAssistant?
    ensures var tr := AfterStore(storeId, env, before).trace;
            forall c :: c in tr && c.CreateAssistant? ==>
              && c == CreateAssistant(AssistantName, AssistantModel, [FileSearch], [storeId])
              && AwaitCompleted(env.retrieves).Ready?
  {
    match AwaitCompleted(env.retrieves)
    case Waiting =>
      assert forall c :: c in Polls(storeId, |env.retrieves|) ==> c.RetrieveVectorStore?;
    case WaitFailed(n, e) =>
      assert forall c :: c in Polls(storeId, n) ==> c.RetrieveVectorStore?;
    case Ready(n) =>
      assert forall c :: c in Polls(storeId, n) ==> c.RetrieveVectorStore?;
  }

  /** Once the store reports "completed" after `n` retrieves, polling stops:
      the trace is the uploads, the store creation, exactly those `n`
      retrieves and the assistant creation, and the thread is created only
      when the assistant creation succeeded. */
  lemma ReadyTrace(arg: ActionArg, env: UploadEnv)
    requires WellFormed(arg, env) && arg.Form? && GetAll(arg.entries, FilesKey) != []
    requires FirstThrow(env.uploads).None? && env.createStore.Ok? && AwaitCompleted(env.retrieves).Ready?
    ensures var s := env.createStore.value;
            var p := UploadFiles(arg, env);
            && p.Returned?
            && p.trace == UploadCalls(GetAll(arg.entries, FilesKey))
                          + [CreateVectorStore(UploadedIds(env.uploads))]
                          + Polls(s, AwaitCompleted(env.retrieves).polls)
                          + [CreateAssistant(AssistantName, AssistantModel, [FileSearch], [s])]
                          + (if env.createAssistant.Ok? then [CreateThread] else [])
  {
  }

  /** A store creation that throws ends the action after the uploads and that
      one call: no retrieve, assistant or thread follows. */
  lemma StoreThrowTrace(arg: ActionArg, env: UploadEnv)
    requires WellFormed(arg, env) && arg.Form? && GetAll(arg.entries, FilesKey) != []
    requires FirstThrow(env.uploads).None? && env.createStore.Threw?
    ensures UploadFiles(arg, env) == Returned(Failed(env.createStore.error),
              UploadCalls(GetAll(arg.entries, FilesKey)) + [CreateVectorStore(UploadedIds(env.uploads))])
  {
  }

  /** While no retrieve has reported "completed" or thrown, the action is
      still waiting, and it has made nothing but the uploads, the store
      creation and those retrieves. */
  lemma PollingTrace(arg: ActionArg, env: UploadEnv)
    requires WellFormed(arg, env) && arg.Form? && GetAll(arg.entries, FilesKey) != []
    requires FirstThrow(env.uploads).None? && env.createStore.Ok? && StillPending(env.retrieves)
    ensures UploadFiles(arg, env) == StillPolling(
              UploadCalls(GetAll(arg.entries, FilesKey))
              + [CreateVectorStore(UploadedIds(env.uploads))]
              + Polls(env.createStore.value, |env.retrieves|))
  {
  }

  /** The missing-files result comes back from a form exactly when no entry
      is filed under "files". */
  lemma NoFilesIffNoEntry(entries: seq<FormEntry>, env: UploadEnv)
    requires WellFormed(Form(entries), env)
    ensures UploadFiles(Form(entries), env) == Returned(UploadResult(Error, NoFilesMessage, None, None), [])
            <==> forall i :: 0 <= i < |entries| ==> entries[i].key != FilesKey
  {
    GetAllEmpty(entries, FilesKey);
    var p := UploadFiles(Form(entries), env);
    if GetAll(entries, FilesKey) != [] && p.Returned? && p.result.status == Error {
      var e :| p.result == Failed(e);
      assert p.result.message[0] == 'U' != NoFilesMessage[0];
    }
  }

  /** A retrieve that throws before any "completed" fails the action; the
      assistant is never created. */
  lemma RetrieveThrowFails(arg: ActionArg, env: UploadEnv, k: nat)
    requires WellFormed(arg, env) && arg.Form? && GetAll(arg.entries, FilesKey) != []
    requires forall i :: 0 <= i < |env.uploads| ==> env.uploads[i].Ok?
    requires env.createStore.Ok?
    requires k < |env.retrieves| && env.retrieves[k].Threw? && StillPending(env.retrieves[..k])
    ensures UploadFiles(arg, env) == Returned(Failed(env.retrieves[k].error),
              UploadCalls(GetAll(arg.entries, FilesKey))
              + [CreateVectorStore(UploadedIds(env.uploads))]
              + Polls(env.createStore.value, k + 1))
  {
    AwaitFirstThrow(env.retrieves, k);
  }

  lemma {:induction false} AwaitFirstThrow(rs: seq<Outcome<string>>, k: nat)
    requires k < |rs| && rs[k].Threw? && StillPending(rs[..k])
    ensures AwaitCompleted(rs) == WaitFailed(k + 1, rs[k].error)
  {
    if k > 0 {
      assert rs[0] == rs[..k][0];
      assert rs[1..][..k - 1] == rs[..k][1..];
      AwaitFirstThrow(rs[1..], k - 1);
    }
  }
}
